=== FILE: README.md ===
# Fusion AI 2.0 — a Dafny model of its decision and accounting core

Fusion AI 2.0 is a Next.js application. It offers chat, image and video generation behind a token balance, and sells token plans through Paystack and Flutterwave. Most of it is UI and network glue. This project models the logic underneath as pure functions over immutable records and proves properties about them:

- **Token ledger of the generator screens.**
  - Video: the quality table and `ceil(duration / 30)` multiplier.
  - Image: the size table and its fallback.
  - Chat: one token per message.
  - Every screen refuses to run on a low balance and debits only after a successful generation.
  - The shared tail of a paid generation (module `Ledger`): the store is debited first, then the balance is written remotely.
- **The application store** (`useStore`).
  - Every action.
  - The `partialize` projection that is persisted.
  - The three state machines that drive it:
    - the sign-in form's modes and user records;
    - the sidebar's navigation, admin gating and logout;
    - the root layout's profile normalisation and choice of screen.
- **The three inference routes** (text, image, audio). Each is split into:
  - everything before `fetch`, yielding an immediate response or the upstream call (`Http.PromptStep`, shared by the text and image routes, and `AudioRoute.Prepare`);
  - `Finish`: what the handler makes of the upstream reply.
- **Payments.**
  - Plan allotments.
  - The request body each provider is sent: amount scaling and the `fusion_<time>_<user>` reference.
  - How each provider's JSON reply is classified as success or failure.
- **The deterministic parts of the in-browser AI engine.**
  - Idempotent initialisation.
  - Video duration clamping, resolution and size label.
  - Code-template selection.
  - The convert/refine framing.
  - The identity stubs.

JavaScript semantics are written out where they matter:

- truthiness and `a || b`;
- property access on `null`/`undefined` throwing a TypeError;
- `String.prototype.trim` and its whitespace set;
- `split`, `Number(...)` and `parseInt(...)`;
- the status check of `NextResponse.json`.

External effects become parameters:

- whether `tf.ready()` resolves;
- what each Firestore or authentication call returned or threw;
- the upstream reply, given as status, bytes and parsed JSON;
- clock readings;
- the random text-template index.

One ordering in the generator screens is worth knowing. The store is debited before the remote balance write is awaited. So a failed write leaves the store debited and shows the error toast. `Ledger.Settle` states this, and the three screens use it.

The image route's test expects status 500 when the upstream answers 503. The code passes the upstream status through. The model follows the code, and `ImageRoute.UpstreamStatusKept` proves that the 503 reaches the client.

## Model

| member | source | states |
|---|---|---|
| Store.Initial | src/store/useStore.ts:71-86 | The initial state has no user and is not authenticated. It has no messages and is not typing. The sidebar is open on the chat page, nothing is loading, the settings are the defaults, and there are no users and no analytics. |
| Store.SetUser | src/store/useStore.ts:89 | The user becomes the given one. The session is authenticated exactly when a user is given. Chat, UI, settings and admin slices are unchanged. |
| Store.SetAuthenticated | src/store/useStore.ts:91 | Only the flag changes; the user is kept whatever it is. |
| Store.AuthenticatedWithoutUser | src/store/useStore.ts:91 | `setAuthenticated(true)` on the initial state gives an authenticated state with no user, so "authenticated iff a user is present" is not an invariant. |
| Store.AddMessage | src/store/useStore.ts:93-95 | The list grows by one. The old messages are its prefix and the new message is last. Nothing else changes. |
| Store.SetTyping | src/store/useStore.ts:97 | Only the typing flag changes. |
| Store.ClearMessages | src/store/useStore.ts:99 | The message list becomes empty. Typing flag, current chat and every other slice are kept. |
| Store.ClearThenAdd | src/store/useStore.ts:93-99 | After clearing, the next message added is the only one. |
| Store.SetSidebarOpen | src/store/useStore.ts:101 | Only `sidebarOpen` changes. |
| Store.SetCurrentPage | src/store/useStore.ts:103 | Only `currentPage` changes. |
| Store.SetLoading | src/store/useStore.ts:105 | Only `loading` changes. |
| Store.ApplyPatch | src/store/useStore.ts:107-109 | Each key present in the patch overwrites that setting; each absent key keeps the old value. |
| Store.UpdateSettings | src/store/useStore.ts:107-109 | The settings become the patched settings; no other slice changes. |
| Store.UpdateSettingsComposes | src/store/useStore.ts:107-109 | Two updates in a row equal one update with the merged patch. The empty patch changes nothing. Repeating a patch changes nothing more. |
| Store.UpdateUserTokens | src/store/useStore.ts:111-113 | No user stays no user. A user gets the new balance and keeps every other field. Nothing else changes. |
| Store.SetUsers | src/store/useStore.ts:115 | Only the admin user list changes. |
| Store.SetAnalytics | src/store/useStore.ts:117 | Only the analytics value changes. |
| Store.Partialize | src/store/useStore.ts:121-127 | The persisted record holds exactly user, flag, settings, sidebar state and current page. |
| Store.Rehydrate | src/store/useStore.ts:121-127 | Laying a persisted record over a state gives a state whose projection is that record. Messages, loading flag, users and analytics are untouched. |
| Store.PersistRoundTrip | src/store/useStore.ts:121-127 | Persisting and reloading into the same state is the identity. States that agree on the five persisted fields persist identically, so messages, typing, loading, users and analytics never reach storage. |
| Ledger.Find | src/components/generators/VideoGenerator.tsx:38 | `find(...)?.tokens` is absent exactly when no row has the id. Otherwise it is the entry of a row with that id. |
| Ledger.FindFirst | src/components/generators/VideoGenerator.tsx:38 | The first row carrying an id is the one found. |
| Ledger.TokensOr | src/components/generators/VideoGenerator.tsx:38 | `found \|\| fallback` is the entry when it is present and non-zero. It is the fallback when the entry is absent and also when it is 0. |
| Ledger.Debit | src/components/generators/VideoGenerator.tsx:92 | `max(0, tokens - cost)` is never negative. It is exactly `tokens - cost` when the balance covers the cost, and 0 otherwise. |
| Ledger.Settle | src/components/generators/VideoGenerator.tsx:89-99 | A generation that threw changes nothing. One that ran debits the store whether or not the remote write succeeds. The success toast shows exactly when both succeeded; otherwise the failure toast shows. |
| Ledger.SettleDebitsExactly | src/components/generators/VideoGenerator.tsx:92-94 | When the balance covers the cost, a generation that ran leaves exactly `tokens - cost`. It changes no other user field, the session, the messages or the settings. |
| VideoGenerator.BaseTokens | src/components/generators/VideoGenerator.tsx:22-26 | The base rate is 5, 10 and 20 for 720p, 1080p and 4K, and 10 for any other quality id. |
| VideoGenerator.CeilDiv30 | src/components/generators/VideoGenerator.tsx:39 | The multiplier m is the least integer with `duration <= 30m`, for every integer duration. |
| VideoGenerator.Cost | src/components/generators/VideoGenerator.tsx:37-41 | `calculateTokens` charges the base rate for every started 30-second block. So 30 times the cost lies in [base × duration, base × (duration + 30)). |
| VideoGenerator.CostMonotone | src/components/generators/VideoGenerator.tsx:37-41 | For positive durations the cost never decreases as the video gets longer. Thirty more seconds add exactly one base rate. |
| VideoGenerator.SliderCostBounds | src/components/generators/VideoGenerator.tsx:231-239 | Over the slider's range of 10 to 10800 seconds, the multiplier lies in [1, 360] and the cost in [5, 7200]. |
| VideoGenerator.SliderDurationUnclamped | src/components/generators/VideoGenerator.tsx:231-239 | Every slider duration reaches the video model unchanged by its three-hour clamp. |
| VideoGenerator.Content | src/components/generators/VideoGenerator.tsx:69-80 | The URL tab sends `"Generate video based on content from: " + url`. The prompt and script tabs send their text untrimmed. |
| VideoGenerator.HandleGenerate | src/components/generators/VideoGenerator.tsx:43-103 | No user: nothing happens. A blank active tab gets its own toast. A balance below the cost gets the insufficient-tokens toast. A model call happens exactly when all three guards pass, and it carries the content, duration, quality and tab. Only a generation that ran changes the store, by debiting the cost. The success toast shows exactly when generation and remote write both succeeded. Otherwise, past the guards, the toast reads "Failed to generate video". |
| VideoGenerator.BalanceAfterGenerate | src/components/generators/VideoGenerator.tsx:60-99 | Once admitted, the balance drops by exactly the cost if the model returned, and stays non-negative. It is unchanged if the model threw. |
| ImageGenerator.Cost | src/components/generators/ImageGenerator.tsx:27-38 | The cost is 1, 2, 4 and 6 for the four size ids, and 2 for any other id. |
| ImageGenerator.Dimensions | src/components/generators/ImageGenerator.tsx:48 | `size.split('x').map(Number)` yields numbers or NaN. A size without an `x` gives `Number(size)` and an undefined height. |
| ImageGenerator.RefineDimensions | src/components/generators/ImageGenerator.tsx:96-97 | `parseInt` of each part yields a number or NaN. A size without an `x` gives `parseInt(size)` and NaN for `parseInt(undefined)`. |
| ImageGenerator.DimensionsOfId | src/components/generators/ImageGenerator.tsx:48 | An id `<w>x<h>` is read back as width w and height h, both by `split('x').map(Number)` and by `parseInt` of each part. |
| ImageGenerator.SizeIdsParse | src/components/generators/ImageGenerator.tsx:48 | Each of the four table ids yields the width and height its name states, in both readings. |
| ImageGenerator.HandleGenerate | src/components/generators/ImageGenerator.tsx:34-71 | A blank prompt or no user is a no-op. A balance below the cost gets the insufficient toast. The model is called exactly when the guards pass, with the parsed width and height and quality "high". A returned image is shown and the cost debited. A throw changes neither the store nor the image, and a refused request leaves the image as it was. Past the guards, every outcome other than the success toast shows "Failed to generate image". |
| ImageGenerator.BalanceAfterGenerate | src/components/generators/ImageGenerator.tsx:40-68 | Once admitted, the balance drops by exactly the size's cost if the model returned, and otherwise is unchanged. It is never negative afterwards. |
| ImageGenerator.HandleRefine | src/components/generators/ImageGenerator.tsx:86-111 | Refining needs a shown image and a non-blank prompt. It sends the prompt plus " (refined, enhanced quality)" with quality "ultra", replaces the image only when the model returns, and has no store argument at all. |
| ImageGenerator.RefineRequestsLikeGenerate | src/components/generators/ImageGenerator.tsx:92-101 | For a table size, refining asks for the same width and height as generating, under the suffixed prompt. |
| Chat.HandleSend | src/components/chat/ChatInterface.tsx:53-106 | Blank input or no user changes nothing. A balance of 0 or less gets the insufficient toast and changes nothing. Otherwise the trimmed user message is appended after the old messages, and the input box and typing flag are cleared. The model is asked with the trimmed input exactly when saving the user message succeeded. Its reply is appended next. The balance drops by exactly one exactly when the reply was produced and saved, and no user field but the balance ever changes. Every failure after the guards shows "Failed to generate response". Settings, sidebar, page, loading flag, users and analytics never change. |
| Chat.Exchange | src/components/chat/ChatInterface.tsx:61-106 | Past the guards, the trimmed user message is appended and the model asked exactly when that message was saved. The reply follows it, and one token is charged exactly when the reply was produced and saved. There is no toast exactly when that and the remote balance write succeeded; otherwise the toast reads "Failed to generate response". Nothing outside the messages, typing flag and balance changes. |
| Chat.MessagesReadBack | src/components/chat/ChatInterface.tsx:61-88 | The user message is from the user and holds the trimmed input, and its id reads back as the clock reading it was built from. The reply message is from the model and holds the reply unchanged, and its id reads back as that clock reading plus one. |
| Chat.FailureKeepsUserMessage | src/components/chat/ChatInterface.tsx:61-102 | A failure before the reply is saved charges nothing. The user's (non-empty, trimmed) message stays in the conversation. |
| Chat.MessageIdsDiffer | src/components/chat/ChatInterface.tsx:61-84 | The user message and the reply get different ids whenever the clock does not run backwards. |
| Chat.HandleKeyPress | src/components/chat/ChatInterface.tsx:123-128 | Any key other than Enter without Shift changes nothing. |
| Chat.EnterSends | src/components/chat/ChatInterface.tsx:123-128 | Enter without Shift is exactly a send. Shift+Enter leaves the conversation, balance and input as they were. |
| Payment.GetTokensForPlan | src/lib/payment.ts:255-258 | The corrected lookup gives starter 1000, professional 5000, enterprise 25000 and lifetime 100000, and 0 for every other name, including "free". |
| Payment.PlansIncrease | src/lib/payment.ts:193-249 | Up the ladder starter, professional, enterprise, lifetime, each plan grants strictly more tokens. It also costs strictly more in naira and in US cents. |
| Payment.GetTokensForPlanAsWritten | src/lib/payment.ts:255-258 | As written, a name inherited from `Object.prototype` gives `undefined`. Every other name agrees with the corrected lookup. |
| Payment.PrototypeNameYieldsUndefined | src/lib/payment.ts:255-258 | For "toString" the code returns `undefined` where 0 is intended. For every non-prototype name the two versions agree. |
| Payment.Reference | src/lib/payment.ts:40 | A reference starts with "fusion_" and ends with "_" + userId. |
| Payment.ParseReference | src/lib/payment.ts:40 | Only strings starting with "fusion_" are read as references. |
| Payment.ReferenceRoundTrip | src/lib/payment.ts:40 | A reference reads back to the clock reading and user id it was built from. So references differ whenever the user or the moment differs. |
| Payment.PaystackRequest | src/lib/payment.ts:36-45 | Paystack is sent `amount * 100` and the reference. Email, currency, plan and user are passed through. |
| Payment.FlutterwaveRequest | src/lib/payment.ts:120-135 | Flutterwave is sent the amount unscaled, the same reference shape and "Payment for <plan> plan". |
| Payment.ProvidersAgree | src/lib/payment.ts:36-135 | At the same moment both providers get the same reference. Paystack's amount is 100 times Flutterwave's. |
| Payment.Caught | src/lib/payment.ts:63-68 | A thrown error gives failure with the fixed message and no reference or data. |
| Payment.Declined | src/lib/payment.ts:57-61 | A declined initialization fails with `result.message` or the default message, and has no reference. |
| Payment.Initialized | src/lib/payment.ts:50-56 | Success exactly when `result.data` and its reference field can be read. The reference and data come from there. Reading a missing `data` throws and yields the network-error failure. |
| Payment.PaystackInitialized | src/lib/payment.ts:48-68 | Paystack initialization succeeds iff the reply parsed, `status` is truthy and `data.reference` can be read. It then returns that reference. A falsy status gives failure with `result.message \|\| 'Payment initialization failed'` and no reference. A throw gives the network-error failure. |
| Payment.FlutterwaveInitialized | src/lib/payment.ts:138-158 | Flutterwave initialization succeeds iff `status === "success"` and `data.tx_ref` can be read, which always holds when `data` is an object. It then returns `data.tx_ref`. Any other status gives failure with `result.message \|\| 'Payment initialization failed'` and no reference. A throw gives the network-error failure. |
| Payment.Verified | src/lib/payment.ts:79-98 | Verification succeeds iff the status passes the provider's test and `data.status` is the settled string. It never carries a reference. Failure carries the verification-failed message or the thrown-error failure. |
| Payment.PaystackVerified | src/lib/payment.ts:71-99 | Paystack verification succeeds iff `status` is truthy and `data.status === "success"`. A falsy status gives the verification-failed response, and a throw gives the verification-error response. |
| Payment.FlutterwaveVerified | src/lib/payment.ts:161-189 | Flutterwave verification succeeds iff `status === "success"` and `data.status === "successful"`. Any other status gives the verification-failed response, and a throw gives the verification-error response. |
| Payment.VerificationRules | src/lib/payment.ts:161-188 | On well-formed replies, Paystack accepts any truthy status with transaction status "success". Flutterwave needs exactly "success" and "successful". |
| Payment.ThrownErrorsFail | src/lib/payment.ts:63-98 | Any thrown error, in either provider's initialize or verify, fails with its fixed message and no reference. |
| Http.JsonWithStatus | src/app/api/generate/text/route.ts:50 | `NextResponse.json` with a status yields that status and body, except for the null-body statuses 204, 205 and 304, where it throws. |
| Http.RequestField | src/app/api/generate/text/route.ts:14 | Destructuring reads the field of the parsed body, and an absent field is `undefined`. A body that is not JSON, or that is `null`, makes it throw. |
| Http.PromptStep | src/app/api/generate/text/route.ts:13-38 | The guard the text and image routes share. A falsy prompt gives 400 "Prompt is required" (exactly then), and this is checked before the key. A missing key gives 500 and no call. Otherwise the model URL is called with `Bearer <key>` and `{ inputs: prompt }`. The image route repeats it at src/app/api/generate/image/route.ts:12-36. |
| TextRoute.Finish | src/app/api/generate/text/route.ts:41-57 | A reply that is not JSON, or a network error, gives 500. Status 200 comes exactly from an ok reply whose first element can be read, with body `{ text: result[0]?.generated_text \|\| apology }`, which is always truthy. A non-ok reply with a readable `error` keeps the upstream status with body `{ error: error \|\| default }`, except status 304 (like 204 and 205, a status `NextResponse.json` refuses), which gives 500. A parsed `null` reply throws on `result[0]` or `result.error` and gives 500. |
| TextRoute.Post | src/app/api/generate/text/route.ts:11-58 | The handler answers 400 or 500 before any call, and otherwise answers with `Finish` of the upstream reply. |
| TextRoute.NoCallWithoutKey | src/app/api/generate/text/route.ts:22-25 | Without a key the answer does not depend on any upstream reply. |
| TextRoute.GeneratedTextOrApology | src/app/api/generate/text/route.ts:43-46 | A truthy `generated_text` is returned as it is. A falsy or missing one, an empty list, or an object reply with no first element gives the apology text. |
| TextRoute.UpstreamErrorPassedThrough | src/app/api/generate/text/route.ts:47-50 | The upstream status and its `error` text are passed on. Without an `error` the default message is used. |
| TextRoute.TestedSuccess | src/app/api/generate/text/__tests__/route.test.ts:20-40 | For any prompt, key and generated text, an ok reply gives 200 `{ text }`. |
| TextRoute.TestedUpstreamFailure | src/app/api/generate/text/__tests__/route.test.ts:42-63 | An upstream 500 with an error message gives 500 with that message. |
| TextRoute.TestedMissingInputs | src/app/api/generate/text/__tests__/route.test.ts:65-99 | A missing prompt gives 400 and a missing key gives 500 with the configuration message. |
| ImageRoute.Finish | src/app/api/generate/image/route.ts:39-57 | An ok reply gives 200 `image/png` with the upstream bytes unchanged. A non-ok JSON reply other than `null` keeps the upstream status with body `{ error: result.error \|\| default }`, so an array, string or number reply gets the default message. A `null` reply, status 304 (a status `NextResponse.json` refuses), a non-JSON reply or a network error gives 500. |
| ImageRoute.Post | src/app/api/generate/image/route.ts:10-58 | The handler answers 400 or 500 before any call, and otherwise answers with `Finish` of the upstream reply. |
| ImageRoute.NoCallWithoutKey | src/app/api/generate/image/route.ts:20-23 | Without a key the answer does not depend on any upstream reply. |
| ImageRoute.UpstreamStatusKept | src/app/api/generate/image/route.ts:46-51 | The upstream error status reaches the client: 503 stays 503. |
| ImageRoute.TestedCases | src/app/api/generate/image/__tests__/route.test.ts:20-82 | An ok reply gives 200 `image/png` with the same bytes, and a missing prompt gives 400. |
| AudioRoute.Authorization | src/app/api/generate/audio/route.ts:18 | The header is `Bearer <key>`, or `Bearer undefined` when no key is set. |
| AudioRoute.Prepare | src/app/api/generate/audio/route.ts:8-24 | A falsy text gives 400 "Text is required" (exactly then). A truthy text is always forwarded, since there is no key check. |
| AudioRoute.Finish | src/app/api/generate/audio/route.ts:26-38 | An ok reply gives 200 `audio/flac` with the same bytes. Every JSON answer here is status 500, whatever the upstream status. A non-ok JSON reply other than `null` gets body `{ error: result.error \|\| default }`. A `null` or non-JSON reply, or a network error, gets "Internal Server Error". |
| AudioRoute.Post | src/app/api/generate/audio/route.ts:6-39 | The route only ever answers 200, 400 or 500. |
| AudioRoute.ForwardsWithoutKey | src/app/api/generate/audio/route.ts:14-24 | With no key configured the request is still forwarded, with `Bearer undefined`. |
| AudioRoute.TestedSuccess | src/app/api/generate/audio/__tests__/route.test.ts:20-42 | An ok reply gives 200 `audio/flac` with the same bytes. |
| AudioRoute.TestedUpstreamFailure | src/app/api/generate/audio/__tests__/route.test.ts:44-65 | An upstream 503 with a message gives 500 with that message. |
| AudioRoute.TestedMissingText | src/app/api/generate/audio/__tests__/route.test.ts:67-82 | A missing text gives 400 "Text is required". |
| Engine.Initialize | src/lib/ai-engine.ts:8-31 | An initialised engine is unchanged. Otherwise the engine becomes initialised exactly when the backend comes up, with every model loaded. A failure is swallowed and changes nothing. |
| Engine.InitializeIdempotent | src/lib/ai-engine.ts:9 | Once initialisation has succeeded, further calls change nothing. |
| Engine.InitializeRetries | src/lib/ai-engine.ts:26-30 | A failed attempt leaves the flag down, so the next call is a fresh attempt. |
| Engine.TextReply | src/lib/ai-engine.ts:38-45 | Each of the three templates quotes the prompt and ends with the fixed suffix. |
| Engine.GenerateText | src/lib/ai-engine.ts:259-263 | The call initialises the engine first. It answers with the template reply exactly when the text model is loaded. |
| Engine.GenerateImage | src/lib/ai-engine.ts:52-77 | The placeholder has the requested width and height, with a falsy one becoming 512, and carries the prompt. |
| Engine.ClampDuration | src/lib/ai-engine.ts:90 | The duration never exceeds 10800. A zero duration becomes 30 and others up to 10800 are kept. |
| Engine.ClampIdempotent | src/lib/ai-engine.ts:90 | Clamping twice is clamping once. |
| Engine.Resolution | src/lib/ai-engine.ts:95-96 | 4K gives 3840x2160, 1080p gives 1920x1080, and anything else gives 1280x720. |
| Engine.ResolutionIsWidescreen | src/lib/ai-engine.ts:95-96 | Every frame size is 16:9. |
| Engine.SizeLabel | src/lib/ai-engine.ts:115 | The label ends in ".0MB", and its number reads back as ten times the duration. |
| Engine.GenerateVideo | src/lib/ai-engine.ts:86-117 | The metadata carries the clamped duration, with the quality defaulting to 1080p. The frame size is that quality's resolution, the size label matches the duration, and the prompt is kept. |
| Engine.SwapFaces | src/lib/ai-engine.ts:289-293 | The call initialises the engine first. It answers with the source image exactly when the face model is loaded. |
| Engine.IdentityStubs | src/lib/ai-engine.ts:244-255 | Face swap returns the source image and enhance returns its input. The image model's refine, modelled at src/lib/ai-engine.ts:79-82, also returns its input. |
| Engine.RefineIgnoresPrompt | src/lib/ai-engine.ts:79-82 | The image model's `refine` returns the image it was given, whatever the prompt. |
| CodeGen.IdentifiersHaveNoSpace | src/lib/ai-engine.ts:159 | The JavaScript identifier is exactly the prompt's non-space characters. Neither identifier holds whitespace, and the Python one has no capitals. |
| CodeGen.SelectTemplate | src/lib/ai-engine.ts:157-226 | The selected code starts with the head of the language's template. |
| CodeGen.FallbackIsJavaScript | src/lib/ai-engine.ts:226 | A language without a template of its own gets exactly the JavaScript template. |
| CodeGen.HeadText | src/lib/ai-engine.ts:158-195 | The templates' first lines name the prompt and declare a function or component named after it. |
| CodeGen.GenerateCode | src/lib/ai-engine.ts:283-287 | The corrected `generateCode` initialises the engine. It answers exactly when the code model is loaded, with code that starts with the language's head. |
| CodeGen.GenerateCodeAsWritten | src/lib/ai-engine.ts:174-190 | As written, `generateCode` always fails. Once the code model is loaded, the failure is the TypeError from `.lower()`. |
| CodeGen.GenerateCodeAsWrittenFails | src/lib/ai-engine.ts:157-226 | On a fresh engine that comes up, every language, JavaScript included, fails as written. The corrected version returns the selected template. |
| CodeGen.UnknownLanguageFallsBack | src/lib/ai-engine.ts:156-226 | An unknown language yields JavaScript code whose function is named by the prompt with all whitespace removed. |
| CodeGen.ConvertFramesCode | src/lib/ai-engine.ts:229-234 | The converted text's lines are one header line, the code's own lines and one footer line, so the code is returned verbatim. |
| CodeGen.RefineFramesCode | src/lib/ai-engine.ts:236-240 | The same framing holds for `refine`, with its own header and footer. |
| CodeGen.Convert | src/lib/ai-engine.ts:229-234 | The converted text is the header line naming both languages, a newline, the code unchanged, a newline and the footer line. |
| CodeGen.Refine | src/lib/ai-engine.ts:236-240 | The refined text is the header line quoting the instructions, a newline, the code unchanged, a newline and the footer line. |
| AuthForm.Offered | src/components/auth/AuthForm.tsx:110-133 | The sign-in and sign-up tabs are shown exactly outside reset mode. |
| AuthForm.ModeMachine | src/components/auth/AuthForm.tsx:259-297 | Reset is entered only from sign-in and left only for sign-in. Sign-in and sign-up reach each other directly. |
| AuthForm.Fields | src/components/auth/AuthForm.tsx:170-217 | The email field is always shown, the password outside reset, and the display name only in sign-up. |
| AuthForm.HandleInputChange | src/components/auth/AuthForm.tsx:19-24 | The named field gets the value and every other field is unchanged. |
| AuthForm.InputChangeKeepsFields | src/components/auth/AuthForm.tsx:13-24 | The initial form has every field, and typing keeps a complete form complete. |
| AuthForm.EmailCall | src/components/auth/AuthForm.tsx:52-68 | Reset mode calls the password reset, sign-up mode calls account creation and sign-in calls sign-in, each with the form's email. |
| AuthForm.GoogleUser | src/components/auth/AuthForm.tsx:30-37 | A Google account becomes a user with 1000 tokens on the free plan. It has a photo URL and no admin flag. |
| AuthForm.SignUpUser | src/components/auth/AuthForm.tsx:58-64 | A new email account gets the form's display name, 1000 tokens, the free plan, and no photo URL or admin flag. |
| AuthForm.HandleGoogleSignIn | src/components/auth/AuthForm.tsx:26-45 | Success stores the Google user and authenticates. The chat, UI and settings are untouched. Failure changes nothing but the toast. |
| AuthForm.HandleEmailAuth | src/components/auth/AuthForm.tsx:47-78 | A reset returns to sign-in. Sign-up stores the new user and authenticates. Sign-in sets only the flag. Any failure leaves the store and the mode unchanged and shows the thrown message or "Authentication failed". |
| AuthForm.SessionsStartAuthenticated | src/components/auth/AuthForm.tsx:30-74 | Every successful sign-in or sign-up authenticates. Both ways of creating an account give 1000 tokens on the free plan. Failures change nothing. |
| Sidebar.Offered | src/components/layout/Sidebar.tsx:47-68 | The menu and account items are always offered. Any other offered id is an admin item shown to an administrator. |
| Sidebar.ListsDisjoint | src/components/layout/Sidebar.tsx:47-68 | No page id appears in two of the three item lists. |
| Sidebar.AdminGating | src/components/layout/Sidebar.tsx:160 | An admin item is offered exactly when the user's `isAdmin` is true. It is hidden when there is no user or the flag is missing. |
| Sidebar.Navigate | src/components/layout/Sidebar.tsx:142-145 | Clicking an offered item shows its page and closes the sidebar. Session, chat, loading flag and settings are unchanged. |
| Sidebar.NavigateHighlightsOne | src/components/layout/Sidebar.tsx:146-148 | The offered ids are pairwise distinct, so after a click only the clicked entry is highlighted. |
| Sidebar.Toggle | src/components/layout/Sidebar.tsx:72-78 | The overlay (lines 72-78), the close button (line 101, `false`) and the mobile menu button (line 235, `true`) change only whether the sidebar is open. |
| Sidebar.CloseAfterNavigate | src/components/layout/Sidebar.tsx:142-145 | Closing after a click changes nothing more, and a click gives the same state whether or not the sidebar was open. |
| Sidebar.Badge | src/components/layout/Sidebar.tsx:108-125 | The badge shows the display name or "User". Its avatar letter is the first letter of the display name, else of the email. |
| Sidebar.HandleLogout | src/components/layout/Sidebar.tsx:37-45 | A successful logout clears the user and the flag. A failed one changes nothing. Chat, UI, settings and admin slices are unchanged. |
| Sidebar.LogoutHidesAccount | src/components/layout/Sidebar.tsx:37-45 | After logout no admin item is offered, and the persisted session has no user and is not authenticated. |
| RootLayout.OrElse | src/app/layout.tsx:47-51 | `a \|\| b` on a nullable string keeps a non-empty `a` and otherwise gives `b`. |
| RootLayout.Normalize | src/app/layout.tsx:45-53 | The stored user takes its uid and email from the account. The display name comes from the account, else the profile, else "". Tokens come from the profile or 0, and the plan from the profile or "free". The admin flag is true only for a stored `true`. |
| RootLayout.OnAuthStateChanged | src/app/layout.tsx:38-66 | Afterwards nothing is loading and start-up is over. A sign-out clears the user and flag. A signed-in account with a profile stores the normalised user and authenticates. Without a profile, or when reading it throws, the store is left as it was. |
| RootLayout.PageFor | src/app/layout.tsx:128-163 | Home, image and video pages are shown for exactly their ids. Any id the switch does not name shows the chat. |
| RootLayout.IdOf | src/app/layout.tsx:129-160 | Reading a page back gives one of the switch's ids. |
| RootLayout.PageRoundTrip | src/app/layout.tsx:129-160 | Every id the switch names shows a page that reads back to that id. |
| RootLayout.PagesDistinct | src/app/layout.tsx:129-160 | Distinct ids of the switch show distinct pages. |
| RootLayout.SidebarPagesKnown | src/components/layout/Sidebar.tsx:47-68 | Every id the sidebar can offer has a case of its own in the layout's switch. None except "chat" shows the chat page. |
| RootLayout.View | src/app/layout.tsx:90-163 | While starting up, the loading screen shows. Otherwise an unauthenticated session sees the sign-in form, and an authenticated one sees the sidebar with its page. |
| RootLayout.ScreensFollowSession | src/app/layout.tsx:59-126 | The start-up screen comes first. A sign-out event, or a logout from the sidebar, leads to the sign-in form. A signed-in event with a profile leads to the page the store names. |
| RootLayout.MissingProfileKeepsSession | src/app/layout.tsx:41-58 | An account with no profile, or an unreadable one, keeps whatever session the store held, persisted sessions included. |
| RootLayout.NormalizeDefaults | src/app/layout.tsx:50-52 | An empty profile gives 0 tokens, the free plan and no admin rights. A non-empty stored plan is kept. The admin section shows exactly for a stored `true`. |
| JsString.Trim | src/components/chat/ChatInterface.tsx:54 | `trim()` never lengthens the text. A non-empty result starts and ends with a non-space character. An all-whitespace input trims to "". |
| JsString.TrimSpec | src/components/chat/ChatInterface.tsx:54 | `!input.trim()` holds exactly when the input is all whitespace. The trimmed text is a contiguous slice of the input. |
| JsString.TrimIdempotent | src/components/chat/ChatInterface.tsx:64 | Trimming twice is trimming once, so the trimmed message content is its own trim. |
| JsString.Split | src/components/generators/ImageGenerator.tsx:48 | `split('x')` gives at least one part, and no part contains the separator. |
| JsString.JoinSplit | src/components/generators/ImageGenerator.tsx:48 | Joining the parts with the separator gives back the string that was split. |
| JsString.LowerAscii | src/lib/ai-engine.ts:175 | Lower-casing keeps the length and the whitespace positions. It leaves no capital letter and changes no character that is not a capital. |
| JsValue.Get | src/lib/payment.ts:53 | Property access throws exactly on `null` and `undefined`, and a missing key on an object reads as `undefined`. |
| JsValue.Or | src/app/api/generate/text/route.ts:45 | `a \|\| b` is one of its operands, and `a` when `a` is truthy. It is truthy iff either operand is. |
| JsValue.ToNumber | src/components/generators/ImageGenerator.tsx:48 | `Number(s)` is a number or NaN. A number read from non-blank text is the decimal value of the trimmed digits. |
| JsValue.ToNumberOfNatToString | src/components/generators/ImageGenerator.tsx:48 | `Number` reads a printed natural number back as that number. |
| JsValue.ParseInt | src/components/generators/ImageGenerator.tsx:96-97 | `parseInt(s)` is a number exactly when a digit follows the leading whitespace, and NaN otherwise. |
| JsValue.ParseIntOfNatToString | src/components/generators/ImageGenerator.tsx:96-97 | `parseInt` reads a printed natural number back even when text that does not start with a digit follows it. |
| Decimal.NatToString | src/lib/payment.ts:40 | `${Date.now()}` prints a non-empty digit string without a leading zero. |
| Decimal.ParseNat | src/lib/payment.ts:40 | Reading digits succeeds exactly on a non-empty digit string. |
| Decimal.ParseNatToString | src/lib/payment.ts:40 | Reading back a printed natural number gives that number. |
| Decimal.NatToStringInjective | src/components/chat/ChatInterface.tsx:62 | Different clock readings print as different ids. |

## Left out

- Network and storage I/O is not modelled. This covers `fetch` to Hugging Face, Paystack and Flutterwave, Firestore, Firebase Auth, and the persist middleware's storage. Each is a parameter saying what the call returned or whether it threw.
- The models receive no canvas drawing, data URLs, downloads, clipboard, speech input, toast timing, JSX or animation. Only the values they depend on are modelled, such as the placeholder's size and caption and the chosen toast text.
- TensorFlow.js start-up is reduced to one flag: whether `tf.ready()` resolves.
- The random choice of a text template is the parameter `pick`.
- `Date.now()` and `new Date()` readings are parameters. The chat message timestamp is the same reading as the id, where the code reads the clock twice.
- Concurrency and interleaving are not modelled, such as two sends in flight or the `isGenerating` flag that disables the buttons. Each handler runs to completion on the state it starts from.
- Styles, the video style and type options, and the image style are passed to the models unmodelled, because no decision depends on them.
- Floating-point prices are not modelled. Plan prices are kept in US cents and whole naira. A payment's `amount` is an integer in the major unit (naira, dollars), so a fractional USD plan price such as 9.99 cannot be passed as a payment amount. `formatCurrency` (Intl.NumberFormat) is not modelled.
- JSON numbers are integral or NaN (`JsValue.Num` holds an integer). A fractional number in an upstream or provider reply, such as a fractional `result.error` or `data.amount`, cannot be represented.
- The audio model's client `generate` (fetch, blob URL) and `getVoices`, and the engine's `getAvailableVoices`, are not modelled, because they are network and browser calls.
- `generateViralAd` and `generateBlogPost` are not modelled. They only build a prompt string and call `generateText`, which is modelled.
- src/app/page.tsx (the marketing page), firebase.ts, next.config.js and jest.config.js are not part of this model.
- JsValue.ToNumber: reads only unsigned decimal digit strings (and blanks as 0). Signs, decimals, exponents and hex give NaN here. The size ids fed to it are digit strings.
- JsValue.ParseInt: reads only an unsigned digit prefix after leading whitespace. Signs and radix prefixes are not modelled.
- JsString.LowerAscii: lower-cases ASCII letters only, where `toLowerCase` folds all of Unicode.
- Engine.SizeLabel: covers integral durations only, the only kind the video panel sends. `toFixed(1)` on fractions is not modelled.
- Store.ApplyPatch: a patch key explicitly set to `undefined` is treated as absent. In the code such a key overwrites the setting with `undefined`.
- RootLayout.Normalize: profile fields are typed (number, string, boolean or missing). A stored value of another type is not modelled.
- CodeGen.SelectTemplate: a language naming an `Object.prototype` member (e.g. "toString") picks a function value in the code. The model falls back to the JavaScript template.

## Findings

| source | as written | input that shows it | evidently intended | confidence | as-written member | corrected member |
|---|---|---|---|---|---|---|
| src/lib/ai-engine.ts:174-190 | The Python template calls `.lower()` on a string. JavaScript strings have no such method. All three templates are built in one object literal before one is selected, so `generateCode` throws a TypeError for every language. | `generateCode("hello world", "javascript")` on an engine that initialises | Lower-case the identifier with `toLowerCase()` and return the selected template | high, not executed | CodeGen.GenerateCodeAsWritten | CodeGen.GenerateCode |
| src/lib/payment.ts:255-258 | `subscriptionPlans[plan]` also finds names inherited from `Object.prototype`. Those values are truthy and have no `tokens`, so the result is `undefined` instead of a number. | `getTokensForPlan("toString")` | 0 tokens for any name that is not one of the four plans | medium, not executed | Payment.GetTokensForPlanAsWritten | Payment.GetTokensForPlan |

=== FILE: audio_route.dfy ===
/** POST /api/generate/audio: checks the text, forwards `{ inputs: text }` to
    the speech model without checking for an API key, and streams the returned
    bytes back as `audio/flac`; every failure is a 500. */
module AudioRoute {
  import opened Wrappers
  import opened JsValue
  import opened Http

  const ModelUrl := "https://api-inference.huggingface.co/models/facebook/mms-tts-eng"
  const TextRequired := "Text is required"
  const UpstreamFailed := "Failed to generate audio"
  const InternalError := "Internal Server Error"

  /** The header built by a template literal: an unset key prints as "undefined". */
  function Authorization(key: Option<string>): (h: string)
    ensures key.Some? ==> h == "Bearer " + key.value
    ensures key.None? ==> h == "Bearer undefined"
  {
    "Bearer " + (if key.Some? then key.value else "undefined")
  }

  function Prepare(request: Option<Value>, key: Option<string>): (r: Step)
    ensures r == Respond(JsonError(400, TextRequired)) <==> FieldMissing(request, "text")
    ensures r.Forward? <==> FieldGiven(request, "text")
    ensures RequestField(request, "text").None? ==> r == Respond(JsonError(500, InternalError))
    ensures r.Forward? ==>
              && r.call.url == ModelUrl
              && r.call.authorization == Authorization(key)
              && r.call.body == Single("inputs", RequestField(request, "text").value)
  {
    match RequestField(request, "text")
    case None => Respond(JsonError(500, InternalError))
    case Some(text) =>
      if !Truthy(text) then Respond(JsonError(400, TextRequired))
      else Forward(Call(ModelUrl, Authorization(key), Single("inputs", text)))
  }

  function Finish(f: Fetched): (r: Response)
    ensures r.BlobResponse? <==> f.Reply? && IsOk(f.status)
    ensures r.BlobResponse? ==> r == BlobResponse(200, "audio/flac", f.bytes)
    ensures r.JsonResponse? ==> r.status == 500
    ensures f.Reply? && !IsOk(f.status) && f.json.Some? && f.json.value.Obj? ==>
              r == JsonResponse(500, ErrorBody(Or(OptGet(f.json.value, "error"), Str(UpstreamFailed))))
    ensures f.Reply? && !IsOk(f.status) && f.json.Some? && !f.json.value.Obj? && !f.json.value.Null?
            && !f.json.value.Undefined? ==>
              r == JsonError(500, UpstreamFailed)
    ensures f.NetworkError? || (f.Reply? && !IsOk(f.status) && f.json.None?) ==>
              r == JsonError(500, InternalError)
    ensures f.Reply? && !IsOk(f.status) && f.json.Some? && (f.json.value.Null? || f.json.value.Undefined?) ==>
              r == JsonError(500, InternalError)
  {
    match f
    case NetworkError => JsonError(500, InternalError)
    case Reply(status, bytes, json) =>
      if IsOk(status) then BlobResponse(200, "audio/flac", bytes)
      else if json.None? then JsonError(500, InternalError)
      else
        match Get(json.value, "error")
        case None => JsonError(500, InternalError)
        case Some(err) => JsonResponse(500, ErrorBody(Or(err, Str(UpstreamFailed))))
  }

  function Post(request: Option<Value>, key: Option<string>, f: Fetched): (r: Response)
    ensures FieldMissing(request, "text") ==> r == JsonError(400, TextRequired)
    ensures FieldGiven(request, "text") ==> r == Finish(f)
    ensures r.status in {200, 400, 500}
  {
    match Prepare(request, key)
    case Respond(resp) => resp
    case Forward(_) => Finish(f)
  }

  /** With the key unset the request is still forwarded. */
  lemma ForwardsWithoutKey(request: Option<Value>)
    requires FieldGiven(request, "text")
    ensures Prepare(request, None) == Forward(Call(ModelUrl, "Bearer undefined",
                                                   Single("inputs", RequestField(request, "text").value)))
  {
  }

  /** The route's success test, for any non-empty text and key: the upstream
      bytes come back as FLAC. */
  lemma TestedSuccess(text: string, key: string, bytes: seq<Byte>)
    requires text != ""
    ensures Post(Some(Single("text", Str(text))), Some(key), Reply(200, bytes, None))
            == BlobResponse(200, "audio/flac", bytes)
  {
    assert FieldGiven(Some(Single("text", Str(text))), "text");
  }

  /** The route's upstream failure test (a 503 saying the model is loading),
      for any non-empty text, key and message: the status becomes 500 and the
      upstream's error text is kept. */
  lemma TestedUpstreamFailure(text: string, key: string, message: string)
    requires text != "" && message != ""
    ensures Post(Some(Single("text", Str(text))), Some(key), Reply(503, [], Some(Single("error", Str(message)))))
            == JsonError(500, message)
  {
    assert FieldGiven(Some(Single("text", Str(text))), "text");
  }

  /** The route's test with a missing text, whatever the upstream would say. */
  lemma TestedMissingText(f: Fetched)
    ensures Post(Some(Obj(map[])), Some("test-api-key"), f) == JsonError(400, TextRequired)
  {
  }
}

=== FILE: auth_form.dfy ===
/** The sign-in screen: its three modes and the controls that move between
    them, the form fields, and what Google sign-in, email sign-up, email
    sign-in and password reset do to the store. */
module AuthForm {
  import opened Wrappers
  import opened Store
  import opened Ledger

  datatype Mode = SignIn | SignUp | Reset

  /** The clickable controls that change the mode: the two tabs, the
      "Forgot your password?" and "Sign up" links under the sign-in form,
      the "Sign in" link under the sign-up form, and "Back to sign in". */
  datatype Control = SignInTab | SignUpTab | ForgotPassword | SignUpLink | SignInLink | BackToSignIn

  /** The controls shown in each mode. */
  function Offered(mode: Mode): (cs: set<Control>)
    ensures (SignInTab in cs || SignUpTab in cs) <==> mode != Reset
  {
    match mode
    case SignIn => {SignInTab, SignUpTab, ForgotPassword, SignUpLink}
    case SignUp => {SignInTab, SignUpTab, SignInLink}
    case Reset => {BackToSignIn}
  }

  /** The mode each control's `setMode` call selects. */
  function Target(c: Control): Mode {
    match c
    case SignInTab => SignIn
    case SignUpTab => SignUp
    case ForgotPassword => Reset
    case SignUpLink => SignUp
    case SignInLink => SignIn
    case BackToSignIn => SignIn
  }

  /** A click: a control that is not shown cannot be clicked. */
  function Click(mode: Mode, c: Control): Mode {
    if c in Offered(mode) then Target(c) else mode
  }

  /** Reset is entered only from sign-in and left only for sign-in; sign-in
      and sign-up reach each other directly. */
  lemma ModeMachine(mode: Mode, c: Control)
    ensures Click(mode, c) == Reset && mode != Reset ==> mode == SignIn
    ensures mode == Reset ==> Click(mode, c) in {Reset, SignIn}
    ensures Click(SignIn, ForgotPassword) == Reset && Click(Reset, BackToSignIn) == SignIn
    ensures Click(SignIn, SignUpLink) == SignUp && Click(SignUp, SignInLink) == SignIn
  {
  }

  /** The form's input names, which are the keys of `formData`. */
  const FieldNames: set<string> := {"email", "password", "displayName"}

  /** The inputs rendered in each mode. */
  function Fields(mode: Mode): (fs: set<string>)
    ensures fs <= FieldNames && "email" in fs
    ensures "password" in fs <==> mode != Reset
    ensures "displayName" in fs <==> mode == SignUp
  {
    match mode
    case SignIn => {"email", "password"}
    case SignUp => {"email", "password", "displayName"}
    case Reset => {"email"}
  }

  /** `formData`, keyed by input name. */
  type Form = map<string, string>

  const InitialForm: Form := map["email" := "", "password" := "", "displayName" := ""]

  predicate Complete(form: Form) {
    FieldNames <= form.Keys
  }

  /** `handleInputChange`: `{ ...formData, [name]: value }`. */
  function HandleInputChange(form: Form, name: string, value: string): (r: Form)
    ensures r.Keys == form.Keys + {name}
    ensures r[name] == value
    ensures forall k :: k in form && k != name ==> r[k] == form[k]
  {
    form[name := value]
  }

  /** Typing keeps every field the form reads, so a complete form stays complete. */
  lemma InputChangeKeepsFields(form: Form, name: string, value: string)
    requires Complete(form)
    ensures Complete(HandleInputChange(form, name, value))
    ensures Complete(InitialForm)
  {
  }

  /** The account the authentication service returns; `None` stands for a
      null property. */
  datatype AuthUser = AuthUser(uid: string, email: Option<string>, displayName: Option<string>, photoURL: Option<string>)

  /** The outcome of an authentication call: the account, or the thrown
      error's message. */
  datatype Outcome = Succeeded(user: AuthUser) | Failed(message: string)

  /** The call made by a form submission in each mode. */
  datatype Call =
    | ResetCall(email: string)
    | SignUpCall(email: string, password: string, displayName: string)
    | SignInCall(email: string, password: string)

  function EmailCall(mode: Mode, form: Form): (c: Call)
    requires Complete(form)
    ensures mode == Reset <==> c.ResetCall?
    ensures mode == SignUp <==> c.SignUpCall?
    ensures c.email == form["email"]
  {
    match mode
    case Reset => ResetCall(form["email"])
    case SignUp => SignUpCall(form["email"], form["password"], form["displayName"])
    case SignIn => SignInCall(form["email"], form["password"])
  }

  /** `x || ''` for a nullable string. */
  function OrEmpty(s: Option<string>): string {
    if s.Some? then s.value else ""
  }

  const StartingTokens := 1000
  const StartingPlan := "free"

  /** The user record Google sign-in stores. */
  function GoogleUser(u: AuthUser): (r: User)
    ensures r.uid == u.uid && r.tokens == StartingTokens && r.plan == StartingPlan
    ensures r.photoURL.Some? && r.isAdmin.None?
  {
    User(u.uid, OrEmpty(u.email), OrEmpty(u.displayName), Some(OrEmpty(u.photoURL)), StartingTokens, StartingPlan, None)
  }

  /** The user record sign-up stores: the name typed into the form. */
  function SignUpUser(u: AuthUser, displayName: string): (r: User)
    ensures r.uid == u.uid && r.displayName == displayName
    ensures r.tokens == StartingTokens && r.plan == StartingPlan
    ensures r.photoURL.None? && r.isAdmin.None?
  {
    User(u.uid, OrEmpty(u.email), displayName, None, StartingTokens, StartingPlan, None)
  }

  /** The store, the mode and the toast after a handler. */
  datatype Run = Run(state: AppState, mode: Mode, toast: Toast)

  /** `error.message || fallback`. */
  function FailureToast(message: string, fallback: string): Toast {
    ErrorToast(if message != "" then message else fallback)
  }

  /** `handleGoogleSignIn`. */
  function HandleGoogleSignIn(s: AppState, mode: Mode, outcome: Outcome): (r: Run)
    ensures r.mode == mode
    ensures outcome.Failed? ==> r.state == s
    ensures outcome.Succeeded? ==>
              && r.state.user == Some(GoogleUser(outcome.user))
              && r.state.isAuthenticated
              && Chat(r.state) == Chat(s) && Ui(r.state) == Ui(s) && r.state.settings == s.settings
  {
    match outcome
    case Succeeded(u) =>
      Run(SetAuthenticated(SetUser(s, Some(GoogleUser(u))), true), mode, SuccessToast("Welcome to Fusion AI 2.0!"))
    case Failed(message) => Run(s, mode, FailureToast(message, "Google sign-in failed"))
  }

  /** `handleEmailAuth`; `outcome` is the result of the call `EmailCall` makes. */
  function HandleEmailAuth(s: AppState, mode: Mode, form: Form, outcome: Outcome): (r: Run)
    requires Complete(form)
    ensures outcome.Failed? ==> r.state == s && r.mode == mode
    ensures outcome.Failed? ==> r.toast == FailureToast(outcome.message, "Authentication failed")
    ensures outcome.Succeeded? && mode == Reset ==> r.state == s && r.mode == SignIn
    ensures outcome.Succeeded? && mode == SignUp ==>
              && r.state.user == Some(SignUpUser(outcome.user, form["displayName"]))
              && r.state.isAuthenticated && r.mode == mode
    ensures outcome.Succeeded? && mode == SignIn ==>
              r.state == s.(isAuthenticated := true) && r.mode == mode
    ensures mode != Reset ==> r.mode == mode
  {
    match outcome
    case Failed(message) => Run(s, mode, FailureToast(message, "Authentication failed"))
    case Succeeded(u) =>
      match mode
      case Reset => Run(s, SignIn, SuccessToast("Password reset email sent!"))
      case SignUp =>
        Run(SetAuthenticated(SetUser(s, Some(SignUpUser(u, form["displayName"]))), true), mode,
            SuccessToast("Account created successfully!"))
      case SignIn => Run(SetAuthenticated(s, true), mode, SuccessToast("Welcome back!"))
  }

  /** Every successful sign-in or sign-up leaves the session authenticated;
      a new account starts with 1000 tokens on the free plan whichever way it
      is created; a failure changes nothing but the toast. */
  lemma SessionsStartAuthenticated(s: AppState, mode: Mode, form: Form, u: AuthUser, message: string)
    requires Complete(form)
    ensures mode != Reset ==> HandleEmailAuth(s, mode, form, Succeeded(u)).state.isAuthenticated
    ensures HandleGoogleSignIn(s, mode, Succeeded(u)).state.isAuthenticated
    ensures var g := HandleGoogleSignIn(s, mode, Succeeded(u)).state.user.value;
            var e := HandleEmailAuth(s, SignUp, form, Succeeded(u)).state.user.value;
      g.tokens == e.tokens == 1000 && g.plan == e.plan == "free" && g.uid == e.uid
    ensures HandleEmailAuth(s, mode, form, Failed(message)).state == s
    ensures HandleGoogleSignIn(s, mode, Failed(message)).state == s
  {
  }
}

=== FILE: chat.dfy ===
/** The chat screen: `handleSend` appends the trimmed user message, asks the
    text model, appends its reply and charges one token; `handleKeyPress`
    sends on Enter without Shift. */
module Chat {
  import opened Wrappers
  import opened JsString
  import Decimal
  import opened Store
  import opened Ledger

  /** How the awaited steps after the user message went: whether saving it
      succeeded, what the model replied (nothing if it threw), whether saving
      the reply succeeded, and whether the remote balance write succeeded. */
  datatype Effects = Effects(userSaved: bool, reply: Option<string>, aiSaved: bool, recorded: bool)

  /** The store after `handleSend`, the input box, the toast, and the prompt
      given to the text model, if it was asked. */
  datatype Run = Run(state: AppState, input: string, toast: Toast, prompt: Option<string>)

  const Insufficient := "Insufficient tokens. Please upgrade your plan."
  const Failed := "Failed to generate response"

  /** The user's message; `sentAt` is the clock reading when it is built. */
  function UserMessage(input: string, sentAt: nat): ChatMessage {
    ChatMessage(Decimal.NatToString(sentAt), FromUser, Trim(input), sentAt)
  }

  /** The model's message; its id is one more than the clock reading `repliedAt`. */
  function AiMessage(reply: string, repliedAt: nat): ChatMessage {
    ChatMessage(Decimal.NatToString(repliedAt + 1), FromAi, reply, repliedAt)
  }

  /** Each message's id is the printed clock reading it was built from
      (plus one for the reply), and its content is the trimmed input or the
      reply as given. */
  lemma MessagesReadBack(input: string, reply: string, sentAt: nat, repliedAt: nat)
    ensures var m := UserMessage(input, sentAt);
      Decimal.ParseNat(m.id) == Some(sentAt) && m.timestamp == sentAt && m.sender == FromUser && m.content == Trim(input)
    ensures var m := AiMessage(reply, repliedAt);
      Decimal.ParseNat(m.id) == Some(repliedAt + 1) && m.timestamp == repliedAt && m.sender == FromAi && m.content == reply
  {
    Decimal.ParseNatToString(sentAt);
    Decimal.ParseNatToString(repliedAt + 1);
  }

  /** Whether `handleSend` gets past its guards. */
  predicate Admitted(s: AppState, input: string) {
    !IsBlank(input) && s.user.Some? && Balance(s) > 0
  }

  /** Whether the reply was produced and saved, which is when the token is charged. */
  predicate Answered(e: Effects) {
    e.userSaved && e.reply.Some? && e.aiSaved
  }

  /** What `handleSend` does once past its guards: the user message is
      appended and the model asked, its reply appended and the token charged
      as far as the awaited steps allow; every failure shows the same toast. */
  function Exchange(s: AppState, input: string, sentAt: nat, repliedAt: nat, e: Effects): (r: Run)
    requires Admitted(s, input)
    ensures && r.input == ""
            && !r.state.isTyping
            && |r.state.messages| == |s.messages| + (if e.userSaved && e.reply.Some? then 2 else 1)
            && r.state.messages[..|s.messages|] == s.messages
            && r.state.messages[|s.messages|] == UserMessage(input, sentAt)
            && (r.prompt.Some? <==> e.userSaved)
            && (r.prompt.Some? ==> r.prompt.value == Trim(input))
    ensures e.userSaved && e.reply.Some? ==>
              r.state.messages[|s.messages| + 1] == AiMessage(e.reply.value, repliedAt)
    ensures r.state.user.Some? && SameButTokens(r.state.user.value, s.user.value)
    ensures Balance(r.state) == (if Answered(e) then Balance(s) - 1 else Balance(s))
    ensures r.toast == NoToast <==> Answered(e) && e.recorded
    ensures r.toast != NoToast ==> r.toast == ErrorToast(Failed)
    ensures r.state.settings == s.settings && Ui(r.state) == Ui(s) && Admin(r.state) == Admin(s)
  {
    var asked := SetTyping(AddMessage(s, UserMessage(input, sentAt)), true);
    var prompt := if e.userSaved then Some(Trim(input)) else None;
    var (settled, toast) :=
      if !e.userSaved || e.reply.None? then (asked, ErrorToast(Failed))
      else
        var replied := AddMessage(asked, AiMessage(e.reply.value, repliedAt));
        if !e.aiSaved then (replied, ErrorToast(Failed))
        else (UpdateUserTokens(replied, Debit(Balance(s), 1)), if e.recorded then NoToast else ErrorToast(Failed));
    Run(SetTyping(settled, false), "", toast, prompt)
  }

  /** `handleSend`. */
  function HandleSend(s: AppState, input: string, sentAt: nat, repliedAt: nat, e: Effects): (r: Run)
    ensures !Admitted(s, input) ==> r.state == s && r.input == input && r.prompt.None?
    ensures !IsBlank(input) && s.user.Some? && Balance(s) <= 0 ==> r.toast == ErrorToast(Insufficient)
    ensures IsBlank(input) || s.user.None? ==> r.toast == NoToast
    ensures Admitted(s, input) ==>
              && r.input == ""
              && !r.state.isTyping
              && |r.state.messages| > |s.messages|
              && r.state.messages[..|s.messages|] == s.messages
              && r.state.messages[|s.messages|] == UserMessage(input, sentAt)
              && (r.prompt.Some? <==> e.userSaved)
              && (r.prompt.Some? ==> r.prompt.value == Trim(input))
    ensures Admitted(s, input) ==>
              |r.state.messages| == |s.messages| + (if e.userSaved && e.reply.Some? then 2 else 1)
    ensures Admitted(s, input) && e.userSaved && e.reply.Some? ==>
              r.state.messages[|s.messages| + 1] == AiMessage(e.reply.value, repliedAt)
    ensures r.state.user.Some? <==> s.user.Some?
    ensures s.user.Some? ==>
              && SameButTokens(r.state.user.value, s.user.value)
              && Balance(r.state) == (if Admitted(s, input) && Answered(e) then Balance(s) - 1 else Balance(s))
    ensures Admitted(s, input) ==> (r.toast == NoToast <==> Answered(e) && e.recorded)
    ensures Admitted(s, input) && r.toast != NoToast ==> r.toast == ErrorToast(Failed)
    ensures r.state.settings == s.settings && Ui(r.state) == Ui(s) && Admin(r.state) == Admin(s)
  {
    if IsBlank(input) || s.user.None? then Run(s, input, NoToast, None)
    else if Balance(s) <= 0 then Run(s, input, ErrorToast(Insufficient), None)
    else Exchange(s, input, sentAt, repliedAt, e)
  }

  /** A failure anywhere before the reply is saved charges nothing, but the
      user's message stays in the conversation. */
  lemma FailureKeepsUserMessage(s: AppState, input: string, sentAt: nat, repliedAt: nat, e: Effects)
    requires Admitted(s, input) && !Answered(e)
    ensures var r := HandleSend(s, input, sentAt, repliedAt, e);
      && Balance(r.state) == Balance(s)
      && UserMessage(input, sentAt) in r.state.messages
      && Trim(input) != ""
  {
    var r := HandleSend(s, input, sentAt, repliedAt, e);
    assert r.state.messages[|s.messages|] == UserMessage(input, sentAt);
  }

  /** The two messages of one exchange get different ids when the clock does
      not run backwards. */
  lemma MessageIdsDiffer(input: string, reply: string, sentAt: nat, repliedAt: nat)
    requires sentAt <= repliedAt
    ensures UserMessage(input, sentAt).id != AiMessage(reply, repliedAt).id
  {
    if Decimal.NatToString(sentAt) == Decimal.NatToString(repliedAt + 1) {
      Decimal.NatToStringInjective(sentAt, repliedAt + 1);
    }
  }

  /** `handleKeyPress`: Enter without Shift sends, every other key does nothing. */
  function HandleKeyPress(s: AppState, input: string, key: string, shift: bool,
                          sentAt: nat, repliedAt: nat, e: Effects): (r: Run)
    ensures key != "Enter" || shift ==> r == Run(s, input, NoToast, None)
  {
    if key == "Enter" && !shift then HandleSend(s, input, sentAt, repliedAt, e)
    else Run(s, input, NoToast, None)
  }

  /** Enter sends exactly as the send button does; Shift+Enter leaves the
      conversation, the balance and the input as they were. */
  lemma EnterSends(s: AppState, input: string, sentAt: nat, repliedAt: nat, e: Effects)
    ensures HandleKeyPress(s, input, "Enter", false, sentAt, repliedAt, e)
            == HandleSend(s, input, sentAt, repliedAt, e)
    ensures var r := HandleKeyPress(s, input, "Enter", true, sentAt, repliedAt, e);
      r.state == s && r.input == input && r.prompt.None?
  {
  }
}

=== FILE: codegen.dfy ===
/** The engine's code model: template-based `generateCode`, and `convert` and
    `refine`, which frame the given code with comment lines. */
module CodeGen {
  import opened Wrappers
  import opened JsString
  import Engine

  /** `prompt.replace(/\s+/g, '')`: the JavaScript and React identifier. */
  function CamelIdent(prompt: string): string {
    ReplaceSpaceRuns(prompt, "")
  }

  /** `prompt.replace(/\s+/g, '_')` lower-cased: the Python identifier. */
  function SnakeIdent(prompt: string): string {
    LowerAscii(ReplaceSpaceRuns(prompt, "_"))
  }

  /** The identifiers hold no whitespace; the JavaScript one is exactly the
      non-space characters of the prompt, and the Python one has no capitals. */
  lemma IdentifiersHaveNoSpace(prompt: string)
    ensures CamelIdent(prompt) == NonSpace(prompt) && NoSpace(CamelIdent(prompt))
    ensures NoSpace(SnakeIdent(prompt))
    ensures forall i :: 0 <= i < |SnakeIdent(prompt)| ==> !IsUpperAscii(SnakeIdent(prompt)[i])
  {
    StripSpacesIsNonSpace(prompt);
    assert !IsSpace('_');
    assert NoSpace("_");
    ReplaceSpaceRunsNoSpace(prompt, "_");
  }

  /** A code template is literal text interleaved with three values taken
      from the prompt: the prompt itself and its two identifier spellings. */
  datatype Piece = Text(text: string) | PromptText | CamelName | SnakeName

  function Fill(p: Piece, prompt: string): string {
    match p
    case Text(t) => t
    case PromptText => prompt
    case CamelName => CamelIdent(prompt)
    case SnakeName => SnakeIdent(prompt)
  }

  /** The template literal evaluated for `prompt`, piece by piece. */
  function Render(ps: seq<Piece>, prompt: string): string
    decreases |ps|
  {
    if |ps| == 0 then "" else Fill(ps[0], prompt) + Render(ps[1..], prompt)
  }

  /** Rendering a template in two parts renders the parts one after the other. */
  lemma {:induction false} RenderConcat(a: seq<Piece>, b: seq<Piece>, prompt: string)
    ensures Render(a + b, prompt) == Render(a, prompt) + Render(b, prompt)
    decreases |a|
  {
    if |a| == 0 {
      assert a + b == b;
    } else {
      assert (a + b)[1..] == a[1..] + b;
      RenderConcat(a[1..], b, prompt);
    }
  }

  /** Rendering a template starting with one piece renders that piece first. */
  lemma RenderCons(p: Piece, ps: seq<Piece>, prompt: string)
    ensures Render([p] + ps, prompt) == Fill(p, prompt) + Render(ps, prompt)
  {
    assert ([p] + ps)[0] == p && ([p] + ps)[1..] == ps;
  }

  /** Each head below has five pieces; this spells out their rendering. */
  lemma RenderFive(p1: Piece, p2: Piece, p3: Piece, p4: Piece, p5: Piece, prompt: string)
    ensures Render([p1, p2, p3, p4, p5], prompt)
            == Fill(p1, prompt) + Fill(p2, prompt) + Fill(p3, prompt) + Fill(p4, prompt) + Fill(p5, prompt)
  {
    var f1, f2, f3, f4, f5 := Fill(p1, prompt), Fill(p2, prompt), Fill(p3, prompt), Fill(p4, prompt), Fill(p5, prompt);
    var r2 := Render([p2, p3, p4, p5], prompt);
    RenderFour(p2, p3, p4, p5, prompt);
    RenderCons(p1, [p2, p3, p4, p5], prompt);
    assert [p1] + [p2, p3, p4, p5] == [p1, p2, p3, p4, p5];
    assert Render([p1, p2, p3, p4, p5], prompt) == f1 + r2;
    ConcatFive(f1, f2, f3, f4, f5);
  }

  lemma RenderFour(p2: Piece, p3: Piece, p4: Piece, p5: Piece, prompt: string)
    ensures Render([p2, p3, p4, p5], prompt)
            == Fill(p2, prompt) + (Fill(p3, prompt) + (Fill(p4, prompt) + Fill(p5, prompt)))
  {
    RenderThree(p3, p4, p5, prompt);
    RenderCons(p2, [p3, p4, p5], prompt);
    assert [p2] + [p3, p4, p5] == [p2, p3, p4, p5];
  }

  lemma RenderThree(p3: Piece, p4: Piece, p5: Piece, prompt: string)
    ensures Render([p3, p4, p5], prompt) == Fill(p3, prompt) + (Fill(p4, prompt) + Fill(p5, prompt))
  {
    RenderTwo(p4, p5, prompt);
    RenderCons(p3, [p4, p5], prompt);
    assert [p3] + [p4, p5] == [p3, p4, p5];
  }

  lemma RenderTwo(p4: Piece, p5: Piece, prompt: string)
    ensures Render([p4, p5], prompt) == Fill(p4, prompt) + Fill(p5, prompt)
  {
    RenderCons(p5, [], prompt);
    assert [p5] + [] == [p5];
    RenderCons(p4, [p5], prompt);
    assert [p4] + [p5] == [p4, p5];
    assert Render([], prompt) == "";
    assert Fill(p5, prompt) + "" == Fill(p5, prompt);
  }

  lemma ConcatFive(a: string, b: string, c: string, d: string, e: string)
    ensures a + (b + (c + (d + e))) == a + b + c + d + e
  {
  }

  /** The first line of each template, and the line naming its function. */
  const JavaScriptHead: seq<Piece> :=
    [Text("// Generated JavaScript code for: "), PromptText, Text("\nfunction "), CamelName, Text("() {")]

  const JavaScriptBody: seq<Piece> :=
    [Text("\n"),
     Text("  console.log('This is a generated function for: "), PromptText,
     Text("');\n"),
     Text("  \n"),
     Text("  // Advanced implementation\n"),
     Text("  const result = performAdvancedOperation();\n"),
     Text("  return result;\n"),
     Text("}\n"),
     Text("\n"),
     Text("function performAdvancedOperation() {\n"),
     Text("  // Sophisticated logic here\n"),
     Text("  return 'Advanced result';\n"),
     Text("}\n"),
     Text("\n"),
     Text("export default "),
     CamelName, Text(";")]

  const PythonHead: seq<Piece> :=
    [Text("# Generated Python code for: "), PromptText, Text("\ndef "), SnakeName, Text("():")]

  const PythonBody: seq<Piece> :=
    [Text("\n"),
     Text("    \"\"\"\n"),
     Text("    Advanced function for: "), PromptText,
     Text("\n"),
     Text("    \"\"\"\n"),
     Text("    print(f\"This is a generated function for: "), PromptText,
     Text("\")\n"),
     Text("    \n"),
     Text("    # Advanced implementation\n"),
     Text("    result = perform_advanced_operation()\n"),
     Text("    return result\n"),
     Text("\n"),
     Text("def perform_advanced_operation():\n"),
     Text("    \"\"\"Sophisticated logic here\"\"\"\n"),
     Text("    return \"Advanced result\"\n"),
     Text("\n"),
     Text("if __name__ == \"__main__\":\n"),
     Text("    "),
     SnakeName, Text("()")]

  const ReactHead: seq<Piece> :=
    [Text("// Generated React component for: "), PromptText,
     Text("\nimport React, { useState, useEffect } from 'react';\n\nconst "), CamelName, Text("Component = () => {")]

  const ReactBody: seq<Piece> :=
    [Text("\n"),
     Text("  const [data, setData] = useState(null);\n"),
     Text("  const [loading, setLoading] = useState(true);\n"),
     Text("\n"),
     Text("  useEffect(() => {\n"),
     Text("    // Advanced component logic\n"),
     Text("    performAdvancedOperation();\n"),
     Text("  }, []);\n"),
     Text("\n"),
     Text("  const performAdvancedOperation = async () => {\n"),
     Text("    // Sophisticated implementation\n"),
     Text("    setLoading(false);\n"),
     Text("    setData('Advanced result');\n"),
     Text("  };\n"),
     Text("\n"),
     Text("  if (loading) {\n"),
     Text("    return <div>Loading...</div>;\n"),
     Text("  }\n"),
     Text("\n"),
     Text("  return (\n"),
     Text("    <div className=\"advanced-component\">\n"),
     Text("      <h1>"),
     PromptText,
     Text("</h1>\n"),
     Text("      <p>Generated with Fusion AI 2.0</p>\n"),
     Text("      <div>{data}</div>\n"),
     Text("    </div>\n"),
     Text("  );\n"),
     Text("};\n"),
     Text("\n"),
     Text("export default "),
     CamelName, Text("Component;")]

  /** The template keys; any other language name falls back to JavaScript. */
  predicate KnownLanguage(language: string) {
    language == "javascript" || language == "python" || language == "react"
  }

  /** The head of the template `codeTemplates[language] || codeTemplates.javascript` picks. */
  function Head(language: string): seq<Piece> {
    if language == "python" then PythonHead
    else if language == "react" then ReactHead
    else JavaScriptHead
  }

  function Body(language: string): seq<Piece> {
    if language == "python" then PythonBody
    else if language == "react" then ReactBody
    else JavaScriptBody
  }

  /** `codeTemplates[language] || codeTemplates.javascript`, with the Python
      identifier lower-cased by `toLowerCase()`. */
  function SelectTemplate(prompt: string, language: string): (code: string)
    ensures StartsWith(code, Render(Head(language), prompt))
  {
    RenderConcat(Head(language), Body(language), prompt);
    StartsWithConcat(Render(Head(language), prompt), Render(Body(language), prompt));
    Render(Head(language) + Body(language), prompt)
  }

  /** Any language without a template of its own gets the JavaScript one. */
  lemma FallbackIsJavaScript(prompt: string, language: string)
    requires !KnownLanguage(language)
    ensures SelectTemplate(prompt, language) == SelectTemplate(prompt, "javascript")
  {
    assert Head(language) == Head("javascript") && Body(language) == Body("javascript");
  }

  /** The head lines spelled out: each template starts by naming the prompt,
      then declares a function (a component for React) named after it. */
  lemma HeadText(prompt: string, language: string)
    ensures language == "python" ==>
      Render(Head(language), prompt)
        == "# Generated Python code for: " + prompt + "\ndef " + SnakeIdent(prompt) + "():"
    ensures language == "react" ==>
      Render(Head(language), prompt)
        == "// Generated React component for: " + prompt
           + "\nimport React, { useState, useEffect } from 'react';\n\nconst "
           + CamelIdent(prompt) + "Component = () => {"
    ensures !KnownLanguage(language) ==>
      Render(Head(language), prompt)
        == "// Generated JavaScript code for: " + prompt + "\nfunction " + CamelIdent(prompt) + "() {"
  {
    var h := Head(language);
    RenderFive(h[0], h[1], h[2], h[3], h[4], prompt);
    assert h == [h[0], h[1], h[2], h[3], h[4]];
  }

  /** `generateCode` as the templates were evidently meant to be written. */
  function GenerateCode(s: Engine.State, tfReady: bool, prompt: string, language: string)
    : (r: Engine.Outcome<string>)
    ensures r.engine == Engine.Initialize(s, tfReady)
    ensures r.result.Ok? <==> Engine.CodeModel in r.engine.models
    ensures r.result.Ok? ==> StartsWith(r.result.value, Render(Head(language), prompt))
  {
    var e := Engine.Initialize(s, tfReady);
    if Engine.CodeModel in e.models then Engine.Outcome(e, Ok(SelectTemplate(prompt, language)))
    else Engine.Outcome(e, Err(Engine.ModelMissing))
  }

  /** Building the Python template calls `.lower()`, which strings do not
      have; the object literal holding all three templates is built before
      any is selected, so the call throws whatever the language. */
  const LowerIsNotAFunction := "TypeError: prompt.replace(...).lower is not a function"

  /** `generateCode` as written. */
  function GenerateCodeAsWritten(s: Engine.State, tfReady: bool, prompt: string, language: string)
    : (r: Engine.Outcome<string>)
    ensures r.engine == Engine.Initialize(s, tfReady)
    ensures r.result.Err?
    ensures Engine.CodeModel in r.engine.models ==> r.result.error == LowerIsNotAFunction
  {
    var e := Engine.Initialize(s, tfReady);
    if Engine.CodeModel in e.models then Engine.Outcome(e, Err(LowerIsNotAFunction))
    else Engine.Outcome(e, Err(Engine.ModelMissing))
  }

  /** On a fresh engine whose backend comes up, every request fails as
      written, for JavaScript too, where the corrected definition returns the
      selected template. */
  lemma GenerateCodeAsWrittenFails(prompt: string, language: string)
    ensures GenerateCodeAsWritten(Engine.Fresh, true, prompt, language).result
            == Err(LowerIsNotAFunction)
    ensures GenerateCode(Engine.Fresh, true, prompt, language).result
            == Ok(SelectTemplate(prompt, language))
  {
    assert Engine.CodeModel in Engine.Initialize(Engine.Fresh, true).models;
  }

  /** An unknown language gets the JavaScript template, whose function is
      named by the prompt with all whitespace removed. */
  lemma UnknownLanguageFallsBack(s: Engine.State, prompt: string, language: string)
    requires !KnownLanguage(language)
    requires s.initialized && Engine.Valid(s)
    ensures GenerateCode(s, false, prompt, language).result.Ok?
    ensures StartsWith(GenerateCode(s, false, prompt, language).result.value,
                       "// Generated JavaScript code for: " + prompt + "\nfunction " + NonSpace(prompt) + "() {")
  {
    IdentifiersHaveNoSpace(prompt);
    HeadText(prompt, language);
  }

  const ConvertFooter := "// Conversion completed by Fusion AI 2.0"
  const RefineFooter := "// Code refinement completed"

  function ConvertHeader(fromLang: string, toLang: string): string {
    "// Converted from " + fromLang + " to " + toLang
  }

  function RefineHeader(instructions: string): string {
    "// Refined code based on: " + instructions
  }

  /** The code model's `convert`. */
  function Convert(code: string, fromLang: string, toLang: string): (r: string)
    ensures StartsWith(r, ConvertHeader(fromLang, toLang) + "\n")
    ensures EndsWith(r, "\n" + ConvertFooter)
    ensures |r| == |ConvertHeader(fromLang, toLang)| + |code| + |ConvertFooter| + 2
    ensures r[|ConvertHeader(fromLang, toLang)| + 1..|r| - |ConvertFooter| - 1] == code
  {
    ConvertHeader(fromLang, toLang) + "\n" + code + "\n" + ConvertFooter
  }

  /** The code model's `refine`. */
  function Refine(code: string, instructions: string): (r: string)
    ensures StartsWith(r, RefineHeader(instructions) + "\n")
    ensures EndsWith(r, "\n" + RefineFooter)
    ensures |r| == |RefineHeader(instructions)| + |code| + |RefineFooter| + 2
    ensures r[|RefineHeader(instructions)| + 1..|r| - |RefineFooter| - 1] == code
  {
    RefineHeader(instructions) + "\n" + code + "\n" + RefineFooter
  }

  /** The result's lines are one header line, the lines of the code exactly
      as given, and one footer line, so re-joining the middle lines gives the
      code back. */
  lemma ConvertFramesCode(code: string, fromLang: string, toLang: string)
    requires '\n' !in fromLang && '\n' !in toLang
    ensures Split(Convert(code, fromLang, toLang), '\n')
            == [ConvertHeader(fromLang, toLang)] + Split(code, '\n') + [ConvertFooter]
    ensures Join(Split(code, '\n'), '\n') == code
  {
    var h := ConvertHeader(fromLang, toLang);
    assert '\n' !in h by {
      assert h == "// Converted from " + fromLang + " to " + toLang;
    }
    assert '\n' !in ConvertFooter;
    SplitFramed(h, code, ConvertFooter, '\n');
    JoinSplit(code, '\n');
  }

  lemma RefineFramesCode(code: string, instructions: string)
    requires '\n' !in instructions
    ensures Split(Refine(code, instructions), '\n')
            == [RefineHeader(instructions)] + Split(code, '\n') + [RefineFooter]
  {
    var h := RefineHeader(instructions);
    assert '\n' !in h by {
      assert h == "// Refined code based on: " + instructions;
    }
    assert '\n' !in RefineFooter;
    SplitFramed(h, code, RefineFooter, '\n');
  }
}

=== FILE: decimal.dfy ===
/** Decimal digit strings: how JavaScript prints a non-negative integer
    (`String(n)`, template literals) and how a digit string is read back. */
module Decimal {
  import opened Wrappers

  predicate IsDigit(c: char) {
    '0' <= c <= '9'
  }

  predicate AllDigits(s: string) {
    forall i :: 0 <= i < |s| ==> IsDigit(s[i])
  }

  function DigitChar(d: nat): (c: char)
    requires d < 10
    ensures IsDigit(c) && DigitValue(c) == d
  {
    ['0', '1', '2', '3', '4', '5', '6', '7', '8', '9'][d]
  }

  function DigitValue(c: char): nat
    requires IsDigit(c)
  {
    (c as int) - ('0' as int)
  }

  /** The shortest decimal spelling of `n`, as `String(n)` prints it. */
  function NatToString(n: nat): (s: string)
    ensures |s| > 0 && AllDigits(s)
    ensures |s| > 1 ==> s[0] != '0'
    decreases n
  {
    if n < 10 then [DigitChar(n)] else NatToString(n / 10) + [DigitChar(n % 10)]
  }

  /** `String(n)` for any integer: a leading '-' for negative values. */
  function IntToString(n: int): (s: string)
    ensures |s| > 0
    ensures n >= 0 <==> s[0] != '-'
  {
    if n >= 0 then NatToString(n) else "-" + NatToString(-n)
  }

  /** The value of a digit string, most significant digit first. */
  function DigitsValue(s: string): nat
    requires AllDigits(s)
    decreases |s|
  {
    if |s| == 0 then 0 else DigitsValue(s[..|s| - 1]) * 10 + DigitValue(s[|s| - 1])
  }

  /** Reads a non-empty string of decimal digits; anything else is absent. */
  function ParseNat(s: string): (r: Option<nat>)
    ensures r.Some? <==> |s| > 0 && AllDigits(s)
  {
    if |s| > 0 && AllDigits(s) then Some(DigitsValue(s)) else None
  }

  lemma {:induction false} DigitsValueOfNatToString(n: nat)
    ensures DigitsValue(NatToString(n)) == n
    decreases n
  {
    if n >= 10 {
      var s := NatToString(n);
      var p := NatToString(n / 10);
      assert s == p + [DigitChar(n % 10)];
      assert s[..|s| - 1] == p;
      DigitsValueOfNatToString(n / 10);
    }
  }

  /** Printing a number and reading it back gives the number. */
  lemma ParseNatToString(n: nat)
    ensures ParseNat(NatToString(n)) == Some(n)
  {
    DigitsValueOfNatToString(n);
  }

  /** Distinct numbers print differently. */
  lemma NatToStringInjective(m: nat, n: nat)
    requires NatToString(m) == NatToString(n)
    ensures m == n
  {
    ParseNatToString(m);
    ParseNatToString(n);
  }
}

=== FILE: engine.dfy ===
/** The in-browser "AI engine": a lazily initialised set of placeholder
    models. Text replies come from fixed templates, images and videos are
    canvas placeholders described by their parameters, code comes from fixed
    templates, and the face operations hand their input back. */
module Engine {
  import opened Wrappers
  import opened JsString
  import Decimal
  import JsValue

  datatype ModelKind = TextModel | ImageModel | VideoModel | AudioModel | CodeModel | FaceSwapModel

  const AllModels: set<ModelKind> := {TextModel, ImageModel, VideoModel, AudioModel, CodeModel, FaceSwapModel}

  /** The engine's private fields: the initialised flag and the loaded models. */
  datatype State = State(initialized: bool, models: set<ModelKind>)

  const Fresh := State(false, {})

  /** Models are loaded all together, so the flag tells which are present. */
  predicate Valid(s: State) {
    s.models == if s.initialized then AllModels else {}
  }

  /** `initialize()`; `tfReady` says whether `tf.ready()` resolves. A failure
      is caught and leaves the engine as it was. */
  function Initialize(s: State, tfReady: bool): (r: State)
    ensures s.initialized ==> r == s
    ensures !s.initialized ==> (r.initialized <==> tfReady)
    ensures r.initialized && !s.initialized ==> AllModels <= r.models
    ensures !tfReady ==> r == s
    ensures Valid(s) ==> Valid(r)
  {
    if s.initialized then s
    else if tfReady then State(true, s.models + AllModels)
    else s
  }

  /** Once initialisation has succeeded, further calls change nothing. */
  lemma InitializeIdempotent(s: State, first: bool, again: bool)
    requires Initialize(s, first).initialized
    ensures Initialize(Initialize(s, first), again) == Initialize(s, first)
  {
  }

  /** A failed attempt leaves the flag down, so the next call tries again. */
  lemma InitializeRetries(s: State, again: bool)
    ensures !s.initialized ==> !Initialize(s, false).initialized
    ensures Initialize(Initialize(s, false), again) == Initialize(s, again)
  {
  }

  /** A public call: the engine after `initialize()` and what the call gave. */
  datatype Outcome<+T> = Outcome(engine: State, result: Result<T>)

  /** Calling a method on a model that was never loaded throws a TypeError. */
  const ModelMissing := "TypeError: model is undefined"

  // ---- text ----------------------------------------------------------------

  const TextSuffix := "\n\nThis response was generated using our proprietary local AI engine, ensuring privacy and lightning-fast processing without external API dependencies."

  function Quoted(prompt: string): string {
    "\"" + prompt + "\""
  }

  function Opening(pick: nat): string {
    if pick == 0 then "Based on your prompt "
    else if pick == 1 then "Analyzing your request: "
    else "Your query "
  }

  function Closing(pick: nat): string {
    if pick == 0 then ", here's a sophisticated response that demonstrates advanced reasoning and contextual understanding. This AI model processes information with human-like comprehension and provides detailed, accurate answers."
    else if pick == 1 then ". The Fusion AI engine leverages advanced neural networks to provide comprehensive responses that surpass traditional models in accuracy and relevance."
    else " has been processed through our advanced language model. Here's a detailed response that showcases the superior capabilities of Fusion AI 2.0."
  }

  /** The reply built from template number `pick` (chosen at random): it
      quotes the prompt and ends with the fixed suffix. */
  function TextReply(prompt: string, pick: nat): (r: string)
    requires pick < 3
    ensures EndsWith(r, TextSuffix)
    ensures Includes(r, Quoted(prompt))
  {
    var body := Opening(pick) + Quoted(prompt) + Closing(pick);
    IncludesMiddle(Opening(pick), Quoted(prompt), Closing(pick));
    IncludesExtended(body, Quoted(prompt), TextSuffix);
    EndsWithConcat(body, TextSuffix);
    body + TextSuffix
  }

  /** `generateText`. */
  function GenerateText(s: State, tfReady: bool, prompt: string, pick: nat): (r: Outcome<string>)
    requires pick < 3
    ensures r.engine == Initialize(s, tfReady)
    ensures r.result.Ok? <==> TextModel in r.engine.models
    ensures r.result.Ok? ==> r.result.value == TextReply(prompt, pick)
  {
    var e := Initialize(s, tfReady);
    if TextModel in e.models then Outcome(e, Ok(TextReply(prompt, pick))) else Outcome(e, Err(ModelMissing))
  }

  // ---- images --------------------------------------------------------------

  /** A canvas placeholder: its size and the prompt written on it. */
  datatype Picture = Picture(width: JsValue.Value, height: JsValue.Value, caption: string)

  /** `generateImage`: a missing, zero or NaN dimension becomes 512. */
  function GenerateImage(s: State, tfReady: bool, prompt: string, width: JsValue.Value, height: JsValue.Value)
    : (r: Outcome<Picture>)
    ensures r.engine == Initialize(s, tfReady)
    ensures r.result.Ok? <==> ImageModel in r.engine.models
    ensures r.result.Ok? ==> r.result.value.caption == prompt
    ensures r.result.Ok? ==> r.result.value.width == (if JsValue.Truthy(width) then width else JsValue.Num(512))
    ensures r.result.Ok? ==> r.result.value.height == (if JsValue.Truthy(height) then height else JsValue.Num(512))
  {
    var e := Initialize(s, tfReady);
    if ImageModel in e.models then
      Outcome(e, Ok(Picture(JsValue.Or(width, JsValue.Num(512)), JsValue.Or(height, JsValue.Num(512)), prompt)))
    else Outcome(e, Err(ModelMissing))
  }

  /** The image model's `refine`. */
  function RefinePicture(image: string, prompt: string): string {
    image
  }

  /** Refining hands the image back untouched, whatever the instructions. */
  lemma RefineIgnoresPrompt(image: string, p1: string, p2: string)
    ensures RefinePicture(image, p1) == RefinePicture(image, p2) == image
  {
  }

  // ---- video ---------------------------------------------------------------

  const MaxDuration := 10800

  /** `Math.min(duration || 30, 10800)`. */
  function ClampDuration(d: int): (r: int)
    ensures r <= MaxDuration
    ensures d == 0 ==> r == 30
    ensures d != 0 && d <= MaxDuration ==> r == d
    ensures d > MaxDuration ==> r == MaxDuration
  {
    var given := if d == 0 then 30 else d;
    if given < MaxDuration then given else MaxDuration
  }

  /** Clamping an already clamped duration changes nothing. */
  lemma ClampIdempotent(d: int)
    ensures ClampDuration(ClampDuration(d)) == ClampDuration(d)
  {
  }

  /** Frame size for a quality label; anything unknown is 720p. */
  function Resolution(quality: string): (wh: (int, int))
    ensures quality == "4K" ==> wh == (3840, 2160)
    ensures quality == "1080p" ==> wh == (1920, 1080)
    ensures quality != "4K" && quality != "1080p" ==> wh == (1280, 720)
  {
    if quality == "4K" then (3840, 2160)
    else if quality == "1080p" then (1920, 1080)
    else (1280, 720)
  }

  /** Every frame size is 16:9. */
  lemma ResolutionIsWidescreen(quality: string)
    ensures Resolution(quality).0 * 9 == Resolution(quality).1 * 16
  {
  }

  /** `(duration * 10).toFixed(1) + "MB"` for an integral duration. */
  function SizeLabel(duration: int): (sz: string)
    ensures |sz| >= 4 && sz[|sz| - 4..] == ".0MB"
    ensures duration >= 0 ==> Decimal.ParseNat(sz[..|sz| - 4]) == Some(duration * 10)
  {
    var digits := Decimal.IntToString(duration * 10);
    var sz := digits + ".0MB";
    assert sz[..|sz| - 4] == digits;
    assert duration >= 0 ==> Decimal.ParseNat(digits) == Some(duration * 10) by {
      if duration >= 0 { Decimal.ParseNatToString(duration * 10); }
    }
    sz
  }

  /** The metadata of a placeholder video. */
  datatype Video = Video(frameWidth: int, frameHeight: int, caption: string, duration: int, quality: string, size: string)

  /** `generateVideo` with the options the video panel passes. */
  function GenerateVideo(s: State, tfReady: bool, prompt: string, duration: int, quality: string)
    : (r: Outcome<Video>)
    ensures r.engine == Initialize(s, tfReady)
    ensures r.result.Ok? <==> VideoModel in r.engine.models
    ensures r.result.Ok? ==>
              var v := r.result.value;
              && v.duration == ClampDuration(duration) && v.duration <= MaxDuration
              && v.quality == (if quality == "" then "1080p" else quality)
              && (v.frameWidth, v.frameHeight) == Resolution(v.quality)
              && v.size == SizeLabel(v.duration)
              && v.caption == prompt
  {
    var e := Initialize(s, tfReady);
    if VideoModel in e.models then
      var d := ClampDuration(duration);
      var q := if quality == "" then "1080p" else quality;
      var wh := Resolution(q);
      Outcome(e, Ok(Video(wh.0, wh.1, prompt, d, q, SizeLabel(d))))
    else Outcome(e, Err(ModelMissing))
  }

  // ---- face swap -----------------------------------------------------------

  function Swap(sourceImage: string, targetImage: string): string {
    sourceImage
  }

  function Enhance(image: string): string {
    image
  }

  /** `swapFaces`. */
  function SwapFaces(s: State, tfReady: bool, sourceImage: string, targetImage: string): (r: Outcome<string>)
    ensures r.engine == Initialize(s, tfReady)
    ensures r.result.Ok? <==> FaceSwapModel in r.engine.models
    ensures r.result.Ok? ==> r.result.value == sourceImage
  {
    var e := Initialize(s, tfReady);
    if FaceSwapModel in e.models then Outcome(e, Ok(Swap(sourceImage, targetImage))) else Outcome(e, Err(ModelMissing))
  }

  /** The placeholder operations give their input image back unchanged. */
  lemma IdentityStubs(source: string, target: string, image: string, prompt: string)
    ensures Swap(source, target) == source
    ensures Enhance(image) == image
    ensures RefinePicture(image, prompt) == image
  {
  }
}

=== FILE: http.dfy ===
/** HTTP as the route handlers see it: the responses they build and the
    replies `fetch` hands back from the upstream inference service. */
module Http {
  import opened Wrappers
  import JsValue

  type Byte = b: int | 0 <= b < 256

  /** A status `fetch` can report for a received response. */
  type Status = s: int | 200 <= s <= 599 witness 200

  /** `Response.ok`. */
  predicate IsOk(status: Status) {
    200 <= status <= 299
  }

  /** Statuses the Response constructor refuses to pair with a body. */
  predicate NullBodyStatus(status: Status) {
    status == 204 || status == 205 || status == 304
  }

  /** What a route handler answers: `NextResponse.json(body, { status })`, or
      a binary body with an explicit `Content-Type`. */
  datatype Response =
    | JsonResponse(status: Status, body: JsValue.Value)
    | BlobResponse(status: Status, contentType: string, bytes: seq<Byte>)

  /** The body `{ error: e }`. */
  function ErrorBody(e: JsValue.Value): JsValue.Value {
    JsValue.Single("error", e)
  }

  function JsonError(status: Status, message: string): Response {
    JsonResponse(status, ErrorBody(JsValue.Str(message)))
  }

  /** What `await fetch(...)` produced: it threw, or a reply whose raw body is
      `bytes` and whose `response.json()` yields `json` (`None`: the body is
      not JSON and `json()` throws). */
  datatype Fetched =
    | NetworkError
    | Reply(status: Status, bytes: seq<Byte>, json: Option<JsValue.Value>)

  /** A request to the upstream service: URL, `Authorization` header, JSON body. */
  datatype Call = Call(url: string, authorization: string, body: JsValue.Value)

  /** The first half of a handler: answer at once, or call upstream. */
  datatype Step = Respond(response: Response) | Forward(call: Call)

  /** `NextResponse.json(body, { status })`: `None` when the constructor throws
      because the status cannot carry a body. */
  function JsonWithStatus(status: Status, body: JsValue.Value): (r: Option<Response>)
    ensures r.Some? <==> !NullBodyStatus(status)
    ensures r.Some? ==> r.value.JsonResponse? && r.value.status == status && r.value.body == body
  {
    if NullBodyStatus(status) then None else Some(JsonResponse(status, body))
  }

  /** `const { name } = await request.json()`: `None` when the body is not
      JSON or is `null`, both of which throw. */
  function RequestField(request: Option<JsValue.Value>, name: string): (r: Option<JsValue.Value>)
    ensures request.None? ==> r.None?
    ensures request.Some? ==> r == JsValue.Get(request.value, name)
    ensures request == Some(JsValue.Null) ==> r.None?
  {
    if request.None? then None else JsValue.Get(request.value, name)
  }

  /** The field was read but is falsy (absent, empty, ...): the 400 case. */
  predicate FieldMissing(request: Option<JsValue.Value>, name: string) {
    RequestField(request, name).Some? && !JsValue.Truthy(RequestField(request, name).value)
  }

  /** The field was read and is truthy. */
  predicate FieldGiven(request: Option<JsValue.Value>, name: string) {
    RequestField(request, name).Some? && JsValue.Truthy(RequestField(request, name).value)
  }

  /** Messages shared by the two routes that call the Hugging Face API. */
  const PromptRequired := "Prompt is required"
  const KeyNotConfigured := "Hugging Face API key is not configured"
  const ServerError := "An internal server error occurred."

  /** `process.env.HUGGING_FACE_API_KEY` holds a non-empty string. */
  predicate KeyConfigured(key: Option<string>) {
    key.Some? && key.value != ""
  }

  /** The part the text and image routes share, before `fetch`: read the
      prompt, refuse a falsy one, refuse to call without a key, and otherwise
      send `{ inputs: prompt }` to the model with the key as bearer token. */
  function PromptStep(modelUrl: string, request: Option<JsValue.Value>, key: Option<string>): (r: Step)
    ensures r == Respond(JsonError(400, PromptRequired)) <==> FieldMissing(request, "prompt")
    ensures r.Forward? <==> FieldGiven(request, "prompt") && KeyConfigured(key)
    ensures FieldGiven(request, "prompt") && !KeyConfigured(key) ==>
              r == Respond(JsonError(500, KeyNotConfigured))
    ensures RequestField(request, "prompt").None? ==> r == Respond(JsonError(500, ServerError))
    ensures r.Forward? ==>
              && r.call.url == modelUrl
              && r.call.authorization == "Bearer " + key.value
              && r.call.body == JsValue.Single("inputs", RequestField(request, "prompt").value)
  {
    match RequestField(request, "prompt")
    case None => Respond(JsonError(500, ServerError))
    case Some(prompt) =>
      if !JsValue.Truthy(prompt) then Respond(JsonError(400, PromptRequired))
      else if !KeyConfigured(key) then Respond(JsonError(500, KeyNotConfigured))
      else Forward(Call(modelUrl, "Bearer " + key.value, JsValue.Single("inputs", prompt)))
  }
}

=== FILE: image_generator.dfy ===
/** The image generator screen: the size cost table, `handleGenerate` with
    its guards and debit, the size id parsed into width and height, and
    `handleRefine`, which regenerates without charging. */
module ImageGenerator {
  import opened Wrappers
  import opened JsString
  import opened JsValue
  import Decimal
  import Store
  import opened Ledger

  /** The size table `sizes`, reduced to id and tokens. */
  const Sizes: Table := [("256x256", 1), ("512x512", 2), ("1024x1024", 4), ("1920x1080", 6)]

  /** `sizes.find(s => s.id === size)?.tokens || 2`. */
  function Cost(size: string): (c: int)
    ensures size == "256x256" ==> c == 1
    ensures size == "512x512" ==> c == 2
    ensures size == "1024x1024" ==> c == 4
    ensures size == "1920x1080" ==> c == 6
    ensures size !in {"256x256", "512x512", "1024x1024", "1920x1080"} ==> c == 2
  {
    FindFirst(Sizes, 0);
    FindFirst(Sizes, 1);
    FindFirst(Sizes, 2);
    FindFirst(Sizes, 3);
    TokensOr(Find(Sizes, size), 2)
  }

  /** `const [width, height] = size.split('x').map(Number)`. */
  function Dimensions(size: string): (r: (Value, Value))
    ensures (r.0.Num? || r.0.NaN?) && (r.1.Num? || r.1.NaN? || r.1.Undefined?)
    ensures 'x' !in size ==> r == (ToNumber(size), Undefined)
  {
    NoSepSplitIf(size, 'x');
    var parts := Split(size, 'x');
    (ToNumber(parts[0]), if |parts| > 1 then ToNumber(parts[1]) else Undefined)
  }

  /** `parseInt(size.split('x')[0])` and `parseInt(size.split('x')[1])`;
      a missing part is `parseInt(undefined)`. */
  function RefineDimensions(size: string): (r: (Value, Value))
    ensures (r.0.Num? || r.0.NaN?) && (r.1.Num? || r.1.NaN?)
    ensures 'x' !in size ==> r == (ParseInt(size), NaN)
  {
    NoSepSplitIf(size, 'x');
    var parts := Split(size, 'x');
    (ParseInt(parts[0]), ParseInt(if |parts| > 1 then parts[1] else "undefined"))
  }

  /** An id spelled `<width>x<height>` gives back that width and height, both
      ways of reading it. */
  lemma {:induction false} DimensionsOfId(w: nat, h: nat)
    ensures var id := Decimal.NatToString(w) + "x" + Decimal.NatToString(h);
      && Dimensions(id) == (Num(w), Num(h))
      && RefineDimensions(id) == (Num(w), Num(h))
  {
    var ws, hs := Decimal.NatToString(w), Decimal.NatToString(h);
    assert 'x' !in ws && 'x' !in hs by {
      assert Decimal.AllDigits(ws) && Decimal.AllDigits(hs);
    }
    SplitCons(ws, hs, 'x');
    NoSepSplit(hs, 'x');
    assert ws + "x" + hs == ws + ['x'] + hs;
    ToNumberOfNatToString(w);
    ToNumberOfNatToString(h);
    ParseIntOfNatToString(w, "");
    ParseIntOfNatToString(h, "");
    assert ws + "" == ws && hs + "" == hs;
  }

  /** The table's ids, spelled as printed numbers around an `x`. */
  lemma SmallIdsSpelled()
    ensures "256x256" == Decimal.NatToString(256) + "x" + Decimal.NatToString(256)
    ensures "512x512" == Decimal.NatToString(512) + "x" + Decimal.NatToString(512)
  {
    assert Decimal.NatToString(256) == "256" by {
      assert Decimal.NatToString(25) == "25" by { assert Decimal.NatToString(2) == "2"; }
    }
    assert Decimal.NatToString(512) == "512" by {
      assert Decimal.NatToString(51) == "51" by { assert Decimal.NatToString(5) == "5"; }
    }
  }

  lemma SquareIdSpelled()
    ensures "1024x1024" == Decimal.NatToString(1024) + "x" + Decimal.NatToString(1024)
  {
    assert Decimal.NatToString(1024) == "1024" by {
      assert Decimal.NatToString(102) == "102" by {
        assert Decimal.NatToString(10) == "10" by { assert Decimal.NatToString(1) == "1"; }
      }
    }
  }

  lemma WideIdSpelled()
    ensures "1920x1080" == Decimal.NatToString(1920) + "x" + Decimal.NatToString(1080)
  {
    assert Decimal.NatToString(1920) == "1920" by {
      assert Decimal.NatToString(192) == "192" by {
        assert Decimal.NatToString(19) == "19" by { assert Decimal.NatToString(1) == "1"; }
      }
    }
    assert Decimal.NatToString(1080) == "1080" by {
      assert Decimal.NatToString(108) == "108" by {
        assert Decimal.NatToString(10) == "10" by { assert Decimal.NatToString(1) == "1"; }
      }
    }
  }

  /** Every id in the size table is parsed into the width and height it
      names, by `Number` when generating and by `parseInt` when refining. */
  lemma SizeIdsParse()
    ensures Dimensions("256x256") == RefineDimensions("256x256") == (Num(256), Num(256))
    ensures Dimensions("512x512") == RefineDimensions("512x512") == (Num(512), Num(512))
    ensures Dimensions("1024x1024") == RefineDimensions("1024x1024") == (Num(1024), Num(1024))
    ensures Dimensions("1920x1080") == RefineDimensions("1920x1080") == (Num(1920), Num(1080))
  {
    SmallIdsSpelled();
    SquareIdSpelled();
    WideIdSpelled();
    DimensionsOfId(256, 256);
    DimensionsOfId(512, 512);
    DimensionsOfId(1024, 1024);
    DimensionsOfId(1920, 1080);
  }

  /** The screen's state besides the store: the prompt, the chosen size id,
      and the image on display. */
  datatype View = View(prompt: string, size: string, image: Option<string>)

  /** The call `fusionAI.generateImage(prompt, { style, width, height, quality })`. */
  datatype Request = Request(prompt: string, width: Value, height: Value, quality: string)

  const Insufficient := "Insufficient tokens for this image size"
  const Succeeded := "Image generated successfully!"
  const Failed := "Failed to generate image"
  const RefineSuffix := " (refined, enhanced quality)"
  const Refined := "Image refined successfully!"
  const RefineFailed := "Failed to refine image"

  datatype Run = Run(state: Store.AppState, view: View, toast: Toast, request: Option<Request>)

  /** Whether `handleGenerate` gets past its guards. */
  predicate Admitted(s: Store.AppState, v: View) {
    !IsBlank(v.prompt) && s.user.Some? && Balance(s) >= Cost(v.size)
  }

  /** `handleGenerate`; `generated` is the image data the model returned, or
      nothing if it threw, and `recorded` says whether the remote balance
      write succeeded. */
  function HandleGenerate(s: Store.AppState, v: View, generated: Option<string>, recorded: bool): (r: Run)
    ensures r.request.Some? <==> Admitted(s, v)
    ensures !Admitted(s, v) || generated.None? ==> r.state == s
    ensures IsBlank(v.prompt) || s.user.None? ==> r == Run(s, v, NoToast, None)
    ensures !IsBlank(v.prompt) && s.user.Some? && Balance(s) < Cost(v.size) ==>
              r.toast == ErrorToast(Insufficient)
    ensures r.request.Some? ==>
              r.request.value == Request(v.prompt, Dimensions(v.size).0, Dimensions(v.size).1, "high")
    ensures Admitted(s, v) && generated.Some? ==>
              r.state == Store.UpdateUserTokens(s, Balance(s) - Cost(v.size))
              && r.view == v.(image := generated)
    ensures generated.None? ==> r.view == v
    ensures r.toast == SuccessToast(Succeeded) <==> Admitted(s, v) && generated.Some? && recorded
    ensures Admitted(s, v) && r.toast != SuccessToast(Succeeded) ==> r.toast == ErrorToast(Failed)
    ensures !Admitted(s, v) ==> r.view == v
  {
    if IsBlank(v.prompt) || s.user.None? then Run(s, v, NoToast, None)
    else
      var cost := Cost(v.size);
      if Balance(s) < cost then Run(s, v, ErrorToast(Insufficient), None)
      else
        var (width, height) := Dimensions(v.size);
        var request := Some(Request(v.prompt, width, height, "high"));
        var (t, toast) := Settle(s, cost, generated.Some?, recorded, Succeeded, Failed);
        Run(t, if generated.Some? then v.(image := generated) else v, toast, request)
  }

  /** A generation that runs takes exactly the size's cost off the balance;
      one that throws takes nothing. */
  lemma BalanceAfterGenerate(s: Store.AppState, v: View, generated: Option<string>, recorded: bool)
    requires Admitted(s, v)
    ensures var r := HandleGenerate(s, v, generated, recorded);
      && r.state.user.Some?
      && Balance(r.state) == (if generated.Some? then Balance(s) - Cost(v.size) else Balance(s))
      && Balance(r.state) >= 0
  {
    assert Cost(v.size) > 0;
  }

  /** The outcome of `handleRefine`: the image on display, the toast, and the
      generation it started, if any. */
  datatype RefineRun = RefineRun(image: Option<string>, toast: Toast, request: Option<Request>)

  /** Whether an image is on display: `generatedImage` is truthy. */
  predicate Shown(image: Option<string>) {
    image.Some? && image.value != ""
  }

  /** `handleRefine`; `refined` is what the model returned, or nothing if it
      threw. The store, and so the balance, is not touched. */
  function HandleRefine(v: View, refined: Option<string>): (r: RefineRun)
    ensures r.request.Some? <==> Shown(v.image) && !IsBlank(v.prompt)
    ensures r.request.Some? ==>
              r.request.value == Request(v.prompt + RefineSuffix, RefineDimensions(v.size).0,
                                         RefineDimensions(v.size).1, "ultra")
    ensures r.image == (if r.request.Some? && refined.Some? then refined else v.image)
    ensures r.toast == SuccessToast(Refined) <==> r.request.Some? && refined.Some?
    ensures r.request.Some? && refined.None? ==> r.toast == ErrorToast(RefineFailed)
  {
    if !Shown(v.image) || IsBlank(v.prompt) then RefineRun(v.image, NoToast, None)
    else
      var (width, height) := RefineDimensions(v.size);
      var request := Some(Request(v.prompt + RefineSuffix, width, height, "ultra"));
      match refined
      case Some(image) => RefineRun(Some(image), SuccessToast(Refined), request)
      case None => RefineRun(v.image, ErrorToast(RefineFailed), request)
  }

  /** Refining sends the prompt with the fixed suffix; for a table size the
      request carries the same width and height as a generation would. */
  lemma RefineRequestsLikeGenerate(s: Store.AppState, v: View, refined: Option<string>,
                                   generated: Option<string>, recorded: bool)
    requires v.size in {"256x256", "512x512", "1024x1024", "1920x1080"}
    requires Admitted(s, v) && Shown(v.image)
    ensures var g := HandleGenerate(s, v, generated, recorded).request.value;
            var r := HandleRefine(v, refined).request.value;
      && r.prompt == g.prompt + RefineSuffix
      && r.width == g.width && r.height == g.height
  {
    SizeIdsParse();
  }
}

=== FILE: image_route.dfy ===
/** POST /api/generate/image: checks the prompt and the API key, forwards
    `{ inputs: prompt }` to the image model and streams the returned bytes
    back as `image/png`, or answers with an `{ error }` body. */
module ImageRoute {
  import opened Wrappers
  import opened JsValue
  import opened Http

  const ModelUrl := "https://api-inference.huggingface.co/models/stabilityai/stable-diffusion-xl-base-1.0"
  const UpstreamFailed := "Failed to generate image due to an API error."

  /** An ok reply is passed through byte for byte; only a failed reply is
      read as JSON. */
  function Finish(f: Fetched): (r: Response)
    ensures r.BlobResponse? <==> f.Reply? && IsOk(f.status)
    ensures r.BlobResponse? ==> r == BlobResponse(200, "image/png", f.bytes)
    ensures f.NetworkError? ==> r == JsonError(500, ServerError)
    ensures f.Reply? && !IsOk(f.status) && f.json.None? ==> r == JsonError(500, ServerError)
    ensures f.Reply? && !IsOk(f.status) && f.json.Some? && f.json.value.Obj? && !NullBodyStatus(f.status) ==>
              && r.status == f.status
              && r.body == ErrorBody(Or(OptGet(f.json.value, "error"), Str(UpstreamFailed)))
    ensures f.Reply? && !IsOk(f.status) && f.json.Some? && !f.json.value.Null? && !f.json.value.Undefined?
            && !NullBodyStatus(f.status) ==>
              r == JsonResponse(f.status, ErrorBody(Or(OptGet(f.json.value, "error"), Str(UpstreamFailed))))
    ensures f.Reply? && !IsOk(f.status) && f.json.Some? && !f.json.value.Obj? && !f.json.value.Null?
            && !f.json.value.Undefined? && !NullBodyStatus(f.status) ==>
              r == JsonError(f.status, UpstreamFailed)
    ensures f.Reply? && !IsOk(f.status) && f.json.Some?
            && (f.json.value.Null? || f.json.value.Undefined? || NullBodyStatus(f.status)) ==>
              r == JsonError(500, ServerError)
  {
    match f
    case NetworkError => JsonError(500, ServerError)
    case Reply(status, bytes, json) =>
      if IsOk(status) then BlobResponse(200, "image/png", bytes)
      else if json.None? then JsonError(500, ServerError)
      else
        match Get(json.value, "error")
        case None => JsonError(500, ServerError)
        case Some(err) =>
          match JsonWithStatus(status, ErrorBody(Or(err, Str(UpstreamFailed))))
          case None => JsonError(500, ServerError)
          case Some(resp) => resp
  }

  function Post(request: Option<Value>, key: Option<string>, f: Fetched): (r: Response)
    ensures FieldMissing(request, "prompt") ==> r == JsonError(400, PromptRequired)
    ensures FieldGiven(request, "prompt") && !KeyConfigured(key) ==> r == JsonError(500, KeyNotConfigured)
    ensures FieldGiven(request, "prompt") && KeyConfigured(key) ==> r == Finish(f)
  {
    match PromptStep(ModelUrl, request, key)
    case Respond(resp) => resp
    case Forward(_) => Finish(f)
  }

  /** Without a key the upstream reply plays no part: no call is made. */
  lemma NoCallWithoutKey(request: Option<Value>, key: Option<string>, f1: Fetched, f2: Fetched)
    requires !KeyConfigured(key)
    ensures Post(request, key, f1) == Post(request, key, f2)
  {
  }

  /** A failed upstream reply keeps its own status. For the reply the route's
      test uses (503, "Model is currently loading") the route answers 503,
      where the test expects 500. */
  lemma UpstreamStatusKept(status: Status, bytes: seq<Byte>)
    requires !IsOk(status) && !NullBodyStatus(status)
    ensures Finish(Reply(status, bytes, Some(Single("error", Str("Model is currently loading")))))
            == JsonError(status, "Model is currently loading")
    ensures Finish(Reply(503, bytes, Some(Single("error", Str("Model is currently loading"))))).status == 503
  {
  }

  /** The route's tests, for any non-empty prompt and key: the upstream bytes
      come back as PNG, and a missing prompt is refused. */
  lemma TestedCases(prompt: string, key: string, bytes: seq<Byte>, f: Fetched)
    requires prompt != "" && key != ""
    ensures Post(Some(Single("prompt", Str(prompt))), Some(key), Reply(200, bytes, None))
            == BlobResponse(200, "image/png", bytes)
    ensures Post(Some(Obj(map[])), Some(key), f) == JsonError(400, PromptRequired)
  {
    assert FieldGiven(Some(Single("prompt", Str(prompt))), "prompt");
  }
}

=== FILE: jsstring.dfy ===
/** The String.prototype operations the components call: `trim()`,
    `replace(/\s+/g, rep)`, `split(sep)` and ASCII lower-casing. */
module JsString {

  /** The characters matched by the regular-expression class `\s` and removed
      by `trim()`: ECMAScript WhiteSpace plus LineTerminator. */
  predicate IsSpace(c: char) {
    || c == '\t' || c == '\n' || c == '\U{000B}' || c == '\U{000C}' || c == '\r' || c == ' '
    || c == '\U{00A0}' || c == '\U{1680}' || ('\U{2000}' <= c <= '\U{200A}')
    || c == '\U{2028}' || c == '\U{2029}' || c == '\U{202F}' || c == '\U{205F}'
    || c == '\U{3000}' || c == '\U{FEFF}'
  }

  predicate AllSpace(s: string) {
    forall i :: 0 <= i < |s| ==> IsSpace(s[i])
  }

  predicate NoSpace(s: string) {
    forall i :: 0 <= i < |s| ==> !IsSpace(s[i])
  }

  /** `trimStart()`: the suffix left after dropping leading whitespace. */
  function TrimStart(s: string): (r: string)
    ensures |r| <= |s| && r == s[|s| - |r|..]
    ensures AllSpace(s[..|s| - |r|])
    ensures |r| > 0 ==> !IsSpace(r[0])
    decreases |s|
  {
    if |s| > 0 && IsSpace(s[0]) then TrimStart(s[1..]) else s
  }

  /** `trimEnd()`: the prefix left after dropping trailing whitespace. */
  function TrimEnd(s: string): (r: string)
    ensures |r| <= |s| && r == s[..|r|]
    ensures AllSpace(s[|r|..])
    ensures |r| > 0 ==> !IsSpace(r[|r| - 1])
    decreases |s|
  {
    if |s| > 0 && IsSpace(s[|s| - 1]) then TrimEnd(s[..|s| - 1]) else s
  }

  /** `trim()`. */
  function Trim(s: string): (r: string)
    ensures |r| <= |s|
    ensures |r| > 0 ==> !IsSpace(r[0]) && !IsSpace(r[|r| - 1])
    ensures AllSpace(s) ==> r == ""
  {
    var t := TrimStart(s);
    assert |t| > 0 ==> t[0] == s[|s| - |t|];
    TrimEnd(t)
  }

  /** `!s.trim()`: the input is empty or whitespace only. */
  predicate IsBlank(s: string) {
    Trim(s) == ""
  }

  /** Blank means every character is whitespace, and the trimmed text of a
      non-blank string starts and ends with a non-space character taken from
      the input in place. */
  lemma TrimSpec(s: string)
    ensures IsBlank(s) <==> AllSpace(s)
    ensures !IsBlank(s) ==> !IsSpace(Trim(s)[0]) && !IsSpace(Trim(s)[|Trim(s)| - 1])
    ensures exists i, j :: 0 <= i <= j <= |s| && Trim(s) == s[i..j]
  {
    var t := TrimStart(s);
    var k := |s| - |t|;
    var r := TrimEnd(t);
    assert Trim(s) == r;
    assert t == s[k..] && r == t[..|r|];
    if r == "" {
      assert AllSpace(t) by {
        assert t[|r|..] == t;
      }
      assert |t| == 0;
      assert s[..k] == s;
    }
    assert r == s[k..k + |r|];
  }

  /** A string that neither starts nor ends with whitespace is its own trim. */
  lemma TrimUnpadded(s: string)
    requires |s| > 0 ==> !IsSpace(s[0]) && !IsSpace(s[|s| - 1])
    ensures Trim(s) == s
  {
    assert TrimStart(s) == s;
  }

  /** Trimming twice is trimming once. */
  lemma TrimIdempotent(s: string)
    ensures Trim(Trim(s)) == Trim(s)
  {
    var t := Trim(s);
    if |t| > 0 {
      TrimSpec(s);
      assert TrimStart(t) == t;
    }
  }

  /** The characters of `s` that are not whitespace, in order. */
  function NonSpace(s: string): (r: string)
    ensures NoSpace(r) && |r| <= |s|
  {
    if |s| == 0 then ""
    else if IsSpace(s[0]) then NonSpace(s[1..])
    else [s[0]] + NonSpace(s[1..])
  }

  /** `s.replace(/\s+/g, rep)`: every maximal run of whitespace becomes one
      copy of `rep`. */
  function ReplaceSpaceRuns(s: string, rep: string): string
    decreases |s|
  {
    if |s| == 0 then ""
    else if IsSpace(s[0]) then rep + ReplaceSpaceRuns(TrimStart(s), rep)
    else [s[0]] + ReplaceSpaceRuns(s[1..], rep)
  }

  lemma {:induction false} NonSpaceOfSpacePrefix(s: string, k: nat)
    requires k <= |s| && AllSpace(s[..k])
    ensures NonSpace(s) == NonSpace(s[k..])
    decreases k
  {
    if k > 0 {
      assert IsSpace(s[..k][0]);
      assert s[1..][..k - 1] == s[1..k];
      NonSpaceOfSpacePrefix(s[1..], k - 1);
      assert s[1..][k - 1..] == s[k..];
    }
  }

  /** Replacing whitespace runs by nothing keeps exactly the non-space
      characters, in order. */
  lemma {:induction false} StripSpacesIsNonSpace(s: string)
    ensures ReplaceSpaceRuns(s, "") == NonSpace(s)
    decreases |s|
  {
    if |s| > 0 {
      if IsSpace(s[0]) {
        var t := TrimStart(s);
        assert ReplaceSpaceRuns(s, "") == ReplaceSpaceRuns(t, "");
        NonSpaceOfSpacePrefix(s, |s| - |t|);
        assert NonSpace(s) == NonSpace(t);
        StripSpacesIsNonSpace(t);
      } else {
        assert ReplaceSpaceRuns(s, "") == [s[0]] + ReplaceSpaceRuns(s[1..], "");
        assert NonSpace(s) == [s[0]] + NonSpace(s[1..]);
        StripSpacesIsNonSpace(s[1..]);
      }
    }
  }

  /** With a whitespace-free replacement the result has no whitespace. */
  lemma {:induction false} ReplaceSpaceRunsNoSpace(s: string, rep: string)
    requires NoSpace(rep)
    ensures NoSpace(ReplaceSpaceRuns(s, rep))
    decreases |s|
  {
    if |s| > 0 {
      if IsSpace(s[0]) {
        ReplaceSpaceRunsNoSpace(TrimStart(s), rep);
      } else {
        ReplaceSpaceRunsNoSpace(s[1..], rep);
      }
    }
  }

  /** A string without whitespace is left as it is. */
  lemma {:induction false} ReplaceSpaceRunsNoOp(s: string, rep: string)
    requires NoSpace(s)
    ensures ReplaceSpaceRuns(s, rep) == s
    decreases |s|
  {
    if |s| > 0 {
      assert !IsSpace(s[0]);
      ReplaceSpaceRunsNoOp(s[1..], rep);
    }
  }

  /** Index of the first `sep` in `s`, or `|s|` when there is none. */
  function FirstIndexOf(s: string, sep: char): (i: nat)
    ensures i <= |s|
    ensures forall k :: 0 <= k < i ==> s[k] != sep
    ensures i < |s| ==> s[i] == sep
    decreases |s|
  {
    if |s| == 0 || s[0] == sep then 0 else 1 + FirstIndexOf(s[1..], sep)
  }

  /** `s.split(sep)` for a one-character separator. */
  function Split(s: string, sep: char): (parts: seq<string>)
    ensures |parts| > 0
    ensures forall k :: 0 <= k < |parts| ==> sep !in parts[k]
    decreases |s|
  {
    var i := FirstIndexOf(s, sep);
    if i == |s| then [s] else [s[..i]] + Split(s[i + 1..], sep)
  }

  /** `parts.join(sep)`. */
  function Join(parts: seq<string>, sep: char): string
    decreases |parts|
  {
    if |parts| == 0 then ""
    else if |parts| == 1 then parts[0]
    else parts[0] + [sep] + Join(parts[1..], sep)
  }

  /** Splitting and re-joining on the same separator gives back the input. */
  lemma {:induction false} JoinSplit(s: string, sep: char)
    ensures Join(Split(s, sep), sep) == s
    decreases |s|
  {
    var i := FirstIndexOf(s, sep);
    if i < |s| {
      var tail := Split(s[i + 1..], sep);
      assert Split(s, sep) == [s[..i]] + tail;
      JoinSplit(s[i + 1..], sep);
      assert Join([s[..i]] + tail, sep) == s[..i] + [sep] + Join(tail, sep);
      assert s == s[..i] + [sep] + s[i + 1..];
    } else {
      assert Split(s, sep) == [s];
    }
  }

  /** Joining separator-free parts and splitting again gives the parts back. */
  lemma {:induction false} SplitJoin(parts: seq<string>, sep: char)
    requires |parts| > 0
    requires forall p :: p in parts ==> sep !in p
    ensures Split(Join(parts, sep), sep) == parts
    decreases |parts|
  {
    if |parts| == 1 {
      assert sep !in parts[0];
    } else {
      var rest := Join(parts[1..], sep);
      assert sep !in parts[0];
      FirstIndexOfJoined(parts[0], rest, sep);
      var s := parts[0] + [sep] + rest;
      assert Join(parts, sep) == s;
      assert s[..|parts[0]|] == parts[0];
      assert s[|parts[0]| + 1..] == rest;
      SplitJoin(parts[1..], sep);
      assert parts == [parts[0]] + parts[1..];
    }
  }

  lemma FirstIndexOfJoined(p: string, rest: string, sep: char)
    requires sep !in p
    ensures FirstIndexOf(p + [sep] + rest, sep) == |p|
  {
    var s := p + [sep] + rest;
    var i := FirstIndexOf(s, sep);
    assert s[|p|] == sep;
    assert forall k :: 0 <= k < |p| ==> s[k] == p[k];
  }

  predicate IsUpperAscii(c: char) {
    'A' <= c <= 'Z'
  }

  /** `toLowerCase()` restricted to ASCII letters. */
  function LowerAscii(s: string): (r: string)
    ensures |r| == |s|
    ensures forall i :: 0 <= i < |s| ==> !IsUpperAscii(r[i])
    ensures forall i :: 0 <= i < |s| && !IsUpperAscii(s[i]) ==> r[i] == s[i]
    ensures forall i :: 0 <= i < |s| ==> IsSpace(r[i]) == IsSpace(s[i])
  {
    seq(|s|, i requires 0 <= i < |s| =>
      if IsUpperAscii(s[i]) then ((s[i] as int) + 32) as char else s[i])
  }

  /** `sub` occurs in `s` starting at index `k`. */
  predicate OccursAt(s: string, sub: string, k: nat) {
    k + |sub| <= |s| && s[k..k + |sub|] == sub
  }

  /** `s.includes(sub)`. */
  predicate Includes(s: string, sub: string) {
    exists k: nat | k <= |s| :: OccursAt(s, sub, k)
  }

  /** The middle part of a concatenation occurs in it. */
  lemma IncludesMiddle(a: string, b: string, c: string)
    ensures OccursAt(a + b + c, b, |a|)
    ensures Includes(a + b + c, b)
  {
    assert (a + b + c)[|a|..|a| + |b|] == b;
    assert OccursAt(a + b + c, b, |a|);
  }

  /** An occurrence survives appending more text. */
  lemma IncludesExtended(s: string, sub: string, more: string)
    requires Includes(s, sub)
    ensures Includes(s + more, sub)
  {
    var k: nat :| k <= |s| && OccursAt(s, sub, k);
    assert (s + more)[k..k + |sub|] == s[k..k + |sub|];
    assert OccursAt(s + more, sub, k);
  }

  /** `s.endsWith(suffix)`. */
  predicate EndsWith(s: string, suffix: string) {
    |suffix| <= |s| && s[|s| - |suffix|..] == suffix
  }

  /** `s.startsWith(prefix)`. */
  predicate StartsWith(s: string, prefix: string) {
    |prefix| <= |s| && s[..|prefix|] == prefix
  }

  lemma EndsWithConcat(a: string, b: string)
    ensures EndsWith(a + b, b)
  {
    assert (a + b)[|a + b| - |b|..] == b;
  }

  lemma StartsWithConcat(a: string, b: string)
    ensures StartsWith(a + b, a)
  {
    assert (a + b)[..|a|] == a;
  }

  /** `NoSepSplit` stated for any string, for use inside function bodies. */
  lemma NoSepSplitIf(s: string, sep: char)
    ensures sep !in s ==> Split(s, sep) == [s]
  {
    if sep !in s {
      NoSepSplit(s, sep);
    }
  }

  /** A string without the separator splits into itself alone. */
  lemma NoSepSplit(s: string, sep: char)
    requires sep !in s
    ensures Split(s, sep) == [s]
  {
    assert FirstIndexOf(s, sep) == |s|;
  }

  /** Splitting at a first part that holds no separator. */
  lemma SplitCons(h: string, rest: string, sep: char)
    requires sep !in h
    ensures Split(h + [sep] + rest, sep) == [h] + Split(rest, sep)
  {
    var s := h + [sep] + rest;
    FirstIndexOfJoined(h, rest, sep);
    assert s[..|h|] == h;
    assert s[|h| + 1..] == rest;
  }

  /** A string holding the separator is its part before the first one, the
      separator, and the rest. */
  lemma CutAtFirst(x: string, sep: char)
    requires FirstIndexOf(x, sep) < |x|
    ensures var i := FirstIndexOf(x, sep);
      x == x[..i] + [sep] + x[i + 1..] && sep !in x[..i]
  {
    var i := FirstIndexOf(x, sep);
    assert sep !in x[..i] by {
      forall k | 0 <= k < i ensures x[..i][k] != sep { }
    }
  }

  /** Splitting with a last part that holds no separator. */
  lemma {:induction false} SplitSnoc(x: string, f: string, sep: char)
    requires sep !in f
    ensures Split(x + [sep] + f, sep) == Split(x, sep) + [f]
    decreases |x|
  {
    var i := FirstIndexOf(x, sep);
    if i == |x| {
      assert sep !in x by {
        forall k | 0 <= k < |x| ensures x[k] != sep { }
      }
      SplitSnocNoSep(x, f, sep);
    } else {
      var a, b := x[..i], x[i + 1..];
      CutAtFirst(x, sep);
      Reassociate(a, b, f, sep);
      SplitCons(a, b + [sep] + f, sep);
      SplitCons(a, b, sep);
      SplitSnoc(b, f, sep);
    }
  }

  lemma SplitSnocNoSep(x: string, f: string, sep: char)
    requires sep !in x && sep !in f
    ensures Split(x + [sep] + f, sep) == [x, f]
  {
    SplitCons(x, f, sep);
    NoSepSplit(f, sep);
  }

  lemma Reassociate(a: string, b: string, f: string, sep: char)
    ensures (a + [sep] + b) + [sep] + f == a + [sep] + (b + [sep] + f)
  {
  }

  /** A block framed by one line before and one line after it. */
  lemma SplitFramed(header: string, body: string, footer: string, sep: char)
    requires sep !in header && sep !in footer
    ensures Split(header + [sep] + body + [sep] + footer, sep) == [header] + Split(body, sep) + [footer]
  {
    Reassociate(header, body, footer, sep);
    SplitCons(header, body + [sep] + footer, sep);
    SplitSnoc(body, footer, sep);
  }
}

=== FILE: jsvalue.dfy ===
/** JavaScript values as `JSON.parse` produces them, plus `undefined`, with
    the operations the application code applies to them: truthiness, `a || b`,
    property access `v.key` (which throws on null and undefined), optional
    access `v?.key` and indexing `v[i]`. Numbers are integral or NaN here. */
module JsValue {
  import opened Wrappers
  import Decimal
  import JsString

  datatype Value =
    | Undefined
    | Null
    | Bool(b: bool)
    | Num(n: int)
    | NaN
    | Str(s: string)
    | Arr(items: seq<Value>)
    | Obj(fields: map<string, Value>)

  /** JavaScript truthiness: `undefined`, `null`, `false`, `0`, `NaN` and `""` are falsy. */
  predicate Truthy(v: Value) {
    match v
    case Undefined => false
    case Null => false
    case Bool(b) => b
    case Num(n) => n != 0
    case NaN => false
    case Str(s) => s != ""
    case Arr(_) => true
    case Obj(_) => true
  }

  /** `a || b`: the first operand when it is truthy, otherwise the second. */
  function Or(a: Value, b: Value): (r: Value)
    ensures r == a || r == b
    ensures Truthy(r) <==> Truthy(a) || Truthy(b)
    ensures Truthy(a) ==> r == a
  {
    if Truthy(a) then a else b
  }

  /** `v.key` on a value that may be null: `None` stands for the TypeError
      thrown when `v` is `null` or `undefined`; a missing key reads as
      `undefined`. Only own keys are modelled. */
  function Get(v: Value, key: string): (r: Option<Value>)
    ensures r.None? <==> v.Undefined? || v.Null?
    ensures v.Obj? && key !in v.fields ==> r == Some(Undefined)
  {
    match v
    case Undefined => None
    case Null => None
    case Obj(fields) => Some(if key in fields then fields[key] else Undefined)
    case _ => Some(Undefined)
  }

  /** `v?.key`: short-circuits to `undefined` instead of throwing. */
  function OptGet(v: Value, key: string): (r: Value)
    ensures v.Undefined? || v.Null? ==> r == Undefined
    ensures Get(v, key).Some? ==> r == Get(v, key).value
  {
    match Get(v, key)
    case None => Undefined
    case Some(x) => x
  }

  /** `v[i]`: `None` for the TypeError on `null`/`undefined`; an array index
      past the end, or a value without that index, reads as `undefined`. */
  function At(v: Value, i: nat): (r: Option<Value>)
    ensures r.None? <==> v.Undefined? || v.Null?
    ensures v.Arr? && i < |v.items| ==> r == Some(v.items[i])
  {
    match v
    case Undefined => None
    case Null => None
    case Arr(items) => Some(if i < |items| then items[i] else Undefined)
    case Str(s) => Some(if i < |s| then Str([s[i]]) else Undefined)
    case Obj(fields) =>
      var key := Decimal.NatToString(i);
      Some(if key in fields then fields[key] else Undefined)
    case _ => Some(Undefined)
  }

  /** An object literal with one property, `{ key: v }`. */
  function Single(key: string, v: Value): (r: Value)
    ensures r.Obj? && r.fields.Keys == {key} && r.fields[key] == v
  {
    Obj(map[key := v])
  }

  /** Strict equality with a string literal, `v === s`. */
  predicate IsStr(v: Value, s: string) {
    v == Str(s)
  }

  /** `Number(s)` for the strings the application converts: surrounding
      whitespace is ignored, the empty string is 0, a decimal digit string is
      its value, and every other form is NaN here. */
  function ToNumber(s: string): (r: Value)
    ensures r.Num? || r.NaN?
    ensures r.Num? && JsString.Trim(s) != "" ==> Decimal.ParseNat(JsString.Trim(s)) == Some(r.n)
  {
    var t := JsString.Trim(s);
    if t == "" then Num(0)
    else
      match Decimal.ParseNat(t)
      case Some(n) => Num(n)
      case None => NaN
  }

  /** `Number(String(n))` is `n`. */
  lemma ToNumberOfNatToString(n: nat)
    ensures ToNumber(Decimal.NatToString(n)) == Num(n)
  {
    var d := Decimal.NatToString(n);
    assert !JsString.IsSpace(d[0]) && !JsString.IsSpace(d[|d| - 1]);
    JsString.TrimUnpadded(d);
    Decimal.ParseNatToString(n);
  }

  /** The longest run of decimal digits at the start of `s`. */
  function DigitPrefix(s: string): (d: string)
    ensures |d| <= |s| && d == s[..|d|] && Decimal.AllDigits(d)
    ensures |d| < |s| ==> !Decimal.IsDigit(s[|d|])
    decreases |s|
  {
    if |s| > 0 && Decimal.IsDigit(s[0]) then
      var rest := DigitPrefix(s[1..]);
      assert s[..|rest| + 1] == [s[0]] + s[1..][..|rest|];
      [s[0]] + rest
    else ""
  }

  /** `parseInt(s)`: leading whitespace is skipped and the longest run of
      digits after it is read; without digits the result is NaN. Signs are
      not read here. */
  function ParseInt(s: string): (r: Value)
    ensures r.Num? || r.NaN?
    ensures r.Num? <==> |JsString.TrimStart(s)| > 0 && Decimal.IsDigit(JsString.TrimStart(s)[0])
  {
    var d := DigitPrefix(JsString.TrimStart(s));
    if d == "" then NaN else Num(Decimal.DigitsValue(d))
  }

  /** `parseInt` reads a printed number back even when other text follows it. */
  lemma ParseIntOfNatToString(n: nat, rest: string)
    requires |rest| > 0 ==> !Decimal.IsDigit(rest[0])
    ensures ParseInt(Decimal.NatToString(n) + rest) == Num(n)
  {
    var d := Decimal.NatToString(n);
    var s := d + rest;
    assert !JsString.IsSpace(s[0]);
    assert JsString.TrimStart(s) == s;
    DigitPrefixOfDigits(d, rest);
    Decimal.DigitsValueOfNatToString(n);
  }

  lemma {:induction false} DigitPrefixOfDigits(d: string, rest: string)
    requires Decimal.AllDigits(d)
    requires |rest| > 0 ==> !Decimal.IsDigit(rest[0])
    ensures DigitPrefix(d + rest) == d
    decreases |d|
  {
    if |d| == 0 {
      assert d + rest == rest;
    } else {
      assert (d + rest)[1..] == d[1..] + rest;
      DigitPrefixOfDigits(d[1..], rest);
      assert d == [d[0]] + d[1..];
    }
  }
}

=== FILE: ledger.dfy ===
/** What the three generator screens share: cost tables looked up by id with
    a fallback, the clamped debit, the toast shown at the end, and the common
    tail of a paid generation (debit the store, then record the balance
    remotely). */
module Ledger {
  import opened Wrappers
  import Store

  /** A `react-hot-toast` notification, or none. */
  datatype Toast = NoToast | ErrorToast(message: string) | SuccessToast(message: string)

  /** A cost table: `[{ id, tokens }, ...]`. */
  type Table = seq<(string, int)>

  /** `table.find(e => e.id === id)?.tokens`: the entry of the first row with
      that id, or absent. */
  function Find(table: Table, id: string): (r: Option<int>)
    ensures r.None? <==> forall i :: 0 <= i < |table| ==> table[i].0 != id
    ensures r.Some? ==> exists i :: 0 <= i < |table| && table[i] == (id, r.value)
    decreases |table|
  {
    if |table| == 0 then None
    else if table[0].0 == id then Some(table[0].1)
    else
      var r := Find(table[1..], id);
      assert forall i :: 1 <= i < |table| ==> table[i] == table[1..][i - 1];
      r
  }

  /** The first row with a given id is the one found. */
  lemma {:induction false} FindFirst(table: Table, i: nat)
    requires i < |table|
    requires forall j :: 0 <= j < i ==> table[j].0 != table[i].0
    ensures Find(table, table[i].0) == Some(table[i].1)
    decreases i
  {
    if i > 0 {
      FindFirst(table[1..], i - 1);
    }
  }

  /** `found || fallback` for a number: an absent or zero entry gives the fallback. */
  function TokensOr(found: Option<int>, fallback: int): (r: int)
    ensures found.Some? && found.value != 0 ==> r == found.value
    ensures found.None? ==> r == fallback
    ensures found == Some(0) ==> r == fallback
  {
    if found.Some? && found.value != 0 then found.value else fallback
  }

  /** `Math.max(0, tokens - cost)`. */
  function Debit(tokens: int, cost: int): (r: int)
    ensures r >= 0
    ensures r == tokens - cost || r == 0
    ensures tokens >= cost ==> r == tokens - cost
    ensures tokens < cost ==> r == 0
  {
    if tokens - cost > 0 then tokens - cost else 0
  }

  /** The balance of the signed-in user. */
  function Balance(s: Store.AppState): int
    requires s.user.Some?
  {
    s.user.value.tokens
  }

  /** The end of a paid generation for a signed-in user: nothing changes if
      generation threw; otherwise the store is debited first and the remote
      write comes after, so a failed write still leaves the store debited,
      with the failure toast instead of the success one. */
  function Settle(s: Store.AppState, cost: int, generated: bool, recorded: bool,
                  succeeded: string, failed: string): (r: (Store.AppState, Toast))
    requires s.user.Some?
    ensures !generated ==> r.0 == s
    ensures generated ==> r.0 == Store.UpdateUserTokens(s, Debit(Balance(s), cost))
    ensures r.1 == SuccessToast(succeeded) <==> generated && recorded
    ensures r.1 != SuccessToast(succeeded) ==> r.1 == ErrorToast(failed)
  {
    if !generated then (s, ErrorToast(failed))
    else
      var debited := Store.UpdateUserTokens(s, Debit(Balance(s), cost));
      if recorded then (debited, SuccessToast(succeeded)) else (debited, ErrorToast(failed))
  }

  /** With the balance covering the cost, a generation that runs leaves exactly
      `tokens - cost`, and nothing but the balance changes. */
  lemma SettleDebitsExactly(s: Store.AppState, cost: int, recorded: bool, succeeded: string, failed: string)
    requires s.user.Some? && Balance(s) >= cost
    ensures var r := Settle(s, cost, true, recorded, succeeded, failed).0;
      && r.user.Some? && Balance(r) == Balance(s) - cost
      && Store.SameButTokens(r.user.value, s.user.value)
      && r.isAuthenticated == s.isAuthenticated && r.messages == s.messages && r.settings == s.settings
  {
  }
}

=== FILE: payment.dfy ===
/** Payments through Paystack and Flutterwave: the subscription plans and
    their token allotments, the request each provider is sent, and how each
    provider's JSON reply is classified as success or failure. A payment's
    `amount` is a whole number of the currency's major unit (naira, dollars),
    which Paystack is sent multiplied by 100; plan prices are kept in whole
    naira and in US cents. */
module Payment {
  import opened Wrappers
  import opened JsString
  import opened JsValue
  import Decimal

  datatype Currency = USD | NGN

  /** `PaymentData`. */
  datatype PaymentData = PaymentData(amount: int, currency: Currency, email: string, plan: string, userId: string)

  /** `PaymentResponse`: `reference` and `data` are present only on success,
      and `message` is whatever value the code puts there. */
  datatype PaymentResponse = PaymentResponse(success: bool, reference: Option<Value>, message: Value, data: Option<Value>)

  /** A subscription plan; the USD price is in cents. */
  datatype Plan = Plan(name: string, usdCents: int, ngn: int, tokens: nat)

  /** `subscriptionPlans`, keyed as in the object literal. */
  const Plans: map<string, Plan> := map[
    "starter" := Plan("Starter", 999, 4500, 1000),
    "professional" := Plan("Professional", 2999, 13500, 5000),
    "enterprise" := Plan("Enterprise", 9999, 45000, 25000),
    "lifetime" := Plan("Lifetime Access", 49999, 225000, 100000)]

  /** `getTokensForPlan` as evidently intended: the plan's allotment for one of
      the four plan keys, and 0 for any other name. */
  function GetTokensForPlan(plan: string): (t: nat)
    ensures plan == "starter" ==> t == 1000
    ensures plan == "professional" ==> t == 5000
    ensures plan == "enterprise" ==> t == 25000
    ensures plan == "lifetime" ==> t == 100000
    ensures plan !in Plans ==> t == 0
  {
    if plan in Plans then Plans[plan].tokens else 0
  }

  /** Each plan up the ladder grants strictly more tokens, and costs strictly
      more in both currencies. */
  lemma PlansIncrease()
    ensures var ladder := ["starter", "professional", "enterprise", "lifetime"];
      forall i, j :: 0 <= i < j < |ladder| ==>
        && GetTokensForPlan(ladder[i]) < GetTokensForPlan(ladder[j])
        && Plans[ladder[i]].ngn < Plans[ladder[j]].ngn
        && Plans[ladder[i]].usdCents < Plans[ladder[j]].usdCents
  {
  }

  /** The names every object inherits from `Object.prototype`. */
  const PrototypeNames: set<string> := {
    "constructor", "__proto__", "toString", "toLocaleString", "valueOf", "hasOwnProperty",
    "isPrototypeOf", "propertyIsEnumerable", "__defineGetter__", "__defineSetter__",
    "__lookupGetter__", "__lookupSetter__"}

  /** `getTokensForPlan` as written: `subscriptionPlans[plan]` also finds the
      inherited members, which are truthy (functions, or the prototype object
      for `__proto__`) and have no `tokens`, so the result is `undefined`. */
  function GetTokensForPlanAsWritten(plan: string): (r: Value)
    ensures plan in PrototypeNames ==> r == Undefined
    ensures plan !in PrototypeNames ==> r == Num(GetTokensForPlan(plan))
  {
    if plan in Plans then Num(Plans[plan].tokens)
    else if plan in PrototypeNames then Undefined
    else Num(0)
  }

  /** The discrepancy: for "toString" the code returns `undefined` where the
      intended answer is 0; for every other name the two agree. */
  lemma PrototypeNameYieldsUndefined(plan: string)
    ensures GetTokensForPlanAsWritten("toString") == Undefined
    ensures GetTokensForPlan("toString") == 0
    ensures plan !in PrototypeNames ==> GetTokensForPlanAsWritten(plan) == Num(GetTokensForPlan(plan))
  {
  }

  const ReferencePrefix := "fusion_"

  /** `fusion_${Date.now()}_${data.userId}`; `now` is the clock reading. */
  function Reference(now: nat, userId: string): (r: string)
    ensures StartsWith(r, ReferencePrefix) && EndsWith(r, "_" + userId)
  {
    var r := ReferencePrefix + Decimal.NatToString(now) + "_" + userId;
    assert r[..|ReferencePrefix|] == ReferencePrefix;
    assert r[|r| - |"_" + userId|..] == "_" + userId;
    r
  }

  /** Reads a reference back into its clock reading and user id. */
  function ParseReference(ref: string): (r: Option<(nat, string)>)
    ensures r.Some? ==> StartsWith(ref, ReferencePrefix)
  {
    if !StartsWith(ref, ReferencePrefix) then None
    else
      var rest := ref[|ReferencePrefix|..];
      var i := FirstIndexOf(rest, '_');
      if i == |rest| then None
      else
        match Decimal.ParseNat(rest[..i])
        case None => None
        case Some(now) => Some((now, rest[i + 1..]))
  }

  /** A reference gives back the clock reading and the user id it was built
      from, so references of different users, or of different moments, differ. */
  lemma ReferenceRoundTrip(now: nat, userId: string)
    ensures ParseReference(Reference(now, userId)) == Some((now, userId))
  {
    var digits := Decimal.NatToString(now);
    var ref := Reference(now, userId);
    var rest := ref[|ReferencePrefix|..];
    assert rest == digits + ['_'] + userId;
    assert '_' !in digits by {
      assert Decimal.AllDigits(digits);
    }
    FirstIndexOfJoined(digits, userId, '_');
    assert rest[..|digits|] == digits;
    assert rest[|digits| + 1..] == userId;
    Decimal.ParseNatToString(now);
  }

  /** The body Paystack's initialize endpoint is sent; `amount` is in the
      currency's minor unit. */
  datatype PaystackInit = PaystackInit(email: string, amount: int, currency: Currency, reference: string,
                                       plan: string, userId: string)

  /** The body Flutterwave's payments endpoint is sent; `amount` is unscaled. */
  datatype FlutterwaveInit = FlutterwaveInit(txRef: string, amount: int, currency: Currency, email: string,
                                             title: string, description: string, plan: string, userId: string)

  function PaystackRequest(d: PaymentData, now: nat): (b: PaystackInit)
    ensures b.amount == d.amount * 100
    ensures b.reference == Reference(now, d.userId)
    ensures b.email == d.email && b.currency == d.currency && b.plan == d.plan && b.userId == d.userId
  {
    PaystackInit(d.email, d.amount * 100, d.currency, Reference(now, d.userId), d.plan, d.userId)
  }

  function FlutterwaveRequest(d: PaymentData, now: nat): (b: FlutterwaveInit)
    ensures b.amount == d.amount
    ensures b.txRef == Reference(now, d.userId)
    ensures b.description == "Payment for " + d.plan + " plan"
  {
    FlutterwaveInit(Reference(now, d.userId), d.amount, d.currency, d.email, "Fusion AI 2.0",
                    "Payment for " + d.plan + " plan", d.plan, d.userId)
  }

  /** The same payment at the same moment is sent to both providers under one
      reference, and Paystack's amount is Flutterwave's in minor units. */
  lemma ProvidersAgree(d: PaymentData, now: nat)
    ensures PaystackRequest(d, now).reference == FlutterwaveRequest(d, now).txRef
    ensures PaystackRequest(d, now).amount == 100 * FlutterwaveRequest(d, now).amount
  {
  }

  const InitOk := "Payment initialized successfully"
  const InitFailed := "Payment initialization failed"
  const VerifyOk := "Payment verified successfully"
  const VerifyFailed := "Payment verification failed"
  const NetworkError := "Network error occurred"
  const VerificationError := "Verification error occurred"

  /** What the `catch` returns. */
  function Caught(message: string): (r: PaymentResponse)
    ensures !r.success && r.reference.None? && r.data.None? && r.message == Str(message)
  {
    PaymentResponse(false, None, Str(message), None)
  }

  /** A failed initialization that did not throw: `result.message || default`. */
  function Declined(result: Value): (r: PaymentResponse)
    requires !(result.Undefined? || result.Null?)
    ensures !r.success && r.reference.None? && r.data.None?
    ensures r.message == Or(OptGet(result, "message"), Str(InitFailed))
  {
    PaymentResponse(false, None, Or(Get(result, "message").value, Str(InitFailed)), None)
  }

  /** A successful initialization: the reference is read from `result.data`,
      which throws if `data` is null or missing. */
  function Initialized(result: Value, refKey: string): (r: PaymentResponse)
    ensures r.success ==> Get(result, "data").Some? && r.data == Get(result, "data")
    ensures r.success <==> Get(result, "data").Some? && Get(Get(result, "data").value, refKey).Some?
    ensures r.success ==> r.reference == Get(Get(result, "data").value, refKey)
    ensures !r.success ==> r == Caught(NetworkError)
  {
    match Get(result, "data")
    case None => Caught(NetworkError)
    case Some(data) =>
      match Get(data, refKey)
      case None => Caught(NetworkError)
      case Some(ref) => PaymentResponse(true, Some(ref), Str(InitOk), Some(data))
  }

  /** Paystack `initializePayment` after the request; `reply` is the parsed
      JSON body, or nothing when `fetch` or `response.json()` threw. */
  function PaystackInitialized(reply: Option<Value>): (r: PaymentResponse)
    ensures r.success <==>
              && reply.Some? && Get(reply.value, "status").Some? && Truthy(Get(reply.value, "status").value)
              && Get(reply.value, "data").Some? && Get(Get(reply.value, "data").value, "reference").Some?
    ensures r.success ==> r.message == Str(InitOk) && r.reference == Some(OptGet(OptGet(reply.value, "data"), "reference"))
    ensures reply.Some? && Get(reply.value, "status").Some? && !Truthy(Get(reply.value, "status").value) ==>
              r == PaymentResponse(false, None, Or(OptGet(reply.value, "message"), Str(InitFailed)), None)
    ensures reply.None? ==> r == Caught(NetworkError)
  {
    match reply
    case None => Caught(NetworkError)
    case Some(result) =>
      match Get(result, "status")
      case None => Caught(NetworkError)
      case Some(status) =>
        if Truthy(status) then Initialized(result, "reference") else Declined(result)
  }

  /** Flutterwave `initializePayment` after the request: success needs
      `status === 'success'`, and the reference is `result.data.tx_ref`. */
  function FlutterwaveInitialized(reply: Option<Value>): (r: PaymentResponse)
    ensures r.success ==> reply.Some? && Get(reply.value, "status") == Some(Str("success"))
    ensures r.success ==> r.message == Str(InitOk) && r.reference == Some(OptGet(OptGet(reply.value, "data"), "tx_ref"))
    ensures r.success <==>
              && reply.Some? && Get(reply.value, "status") == Some(Str("success"))
              && Get(reply.value, "data").Some? && Get(Get(reply.value, "data").value, "tx_ref").Some?
    ensures (reply.Some? && Get(reply.value, "status") == Some(Str("success"))
             && Get(reply.value, "data").Some? && Get(reply.value, "data").value.Obj?) ==> r.success
    ensures reply.Some? && Get(reply.value, "status").Some? && Get(reply.value, "status") != Some(Str("success")) ==>
              r == PaymentResponse(false, None, Or(OptGet(reply.value, "message"), Str(InitFailed)), None)
    ensures reply.None? ==> r == Caught(NetworkError)
  {
    match reply
    case None => Caught(NetworkError)
    case Some(result) =>
      match Get(result, "status")
      case None => Caught(NetworkError)
      case Some(status) =>
        if IsStr(status, "success") then Initialized(result, "tx_ref") else Declined(result)
  }

  /** Verification: `okStatus` tells whether `result.status` passes, and
      `settled` is the value `result.data.status` must equal. */
  function Verified(reply: Option<Value>, okStatus: Value -> bool, settled: string): (r: PaymentResponse)
    ensures r.reference.None?
    ensures r.success <==>
              && reply.Some? && Get(reply.value, "status").Some? && okStatus(Get(reply.value, "status").value)
              && Get(reply.value, "data").Some? && Get(Get(reply.value, "data").value, "status").Some?
              && IsStr(Get(Get(reply.value, "data").value, "status").value, settled)
    ensures r.success ==> r.message == Str(VerifyOk) && r.data == Get(reply.value, "data")
    ensures !r.success ==> r.message == Str(VerifyFailed) || r == Caught(VerificationError)
    ensures reply.None? ==> r == Caught(VerificationError)
  {
    match reply
    case None => Caught(VerificationError)
    case Some(result) =>
      match Get(result, "status")
      case None => Caught(VerificationError)
      case Some(status) =>
        if !okStatus(status) then PaymentResponse(false, None, Str(VerifyFailed), None)
        else
          match Get(result, "data")
          case None => Caught(VerificationError)
          case Some(data) =>
            match Get(data, "status")
            case None => Caught(VerificationError)
            case Some(ds) =>
              if IsStr(ds, settled) then PaymentResponse(true, None, Str(VerifyOk), Some(data))
              else PaymentResponse(false, None, Str(VerifyFailed), None)
  }

  /** Paystack `verifyPayment`: a truthy `status` and `data.status === 'success'`. */
  function PaystackVerified(reply: Option<Value>): (r: PaymentResponse)
    ensures r.success <==>
              && reply.Some? && Get(reply.value, "status").Some? && Truthy(Get(reply.value, "status").value)
              && Get(reply.value, "data").Some? && Get(Get(reply.value, "data").value, "status") == Some(Str("success"))
    ensures reply.Some? && Get(reply.value, "status").Some? && !Truthy(Get(reply.value, "status").value) ==>
              r == PaymentResponse(false, None, Str(VerifyFailed), None)
    ensures reply.None? ==> r == Caught(VerificationError)
  {
    Verified(reply, Truthy, "success")
  }

  /** Flutterwave `verifyPayment`: `status === 'success'` and `data.status === 'successful'`. */
  function FlutterwaveVerified(reply: Option<Value>): (r: PaymentResponse)
    ensures r.success <==>
              && reply.Some? && Get(reply.value, "status") == Some(Str("success"))
              && Get(reply.value, "data").Some? && Get(Get(reply.value, "data").value, "status") == Some(Str("successful"))
    ensures reply.Some? && Get(reply.value, "status").Some? && Get(reply.value, "status") != Some(Str("success")) ==>
              r == PaymentResponse(false, None, Str(VerifyFailed), None)
    ensures reply.None? ==> r == Caught(VerificationError)
  {
    Verified(reply, (v: Value) => IsStr(v, "success"), "successful")
  }

  /** The two providers' verification rules on well-formed replies: Paystack
      accepts any truthy status with a "success" transaction; Flutterwave
      needs the exact status "success" and a "successful" transaction, so a
      Paystack-style `true` status is not enough for it. */
  lemma VerificationRules(status: Value, txStatus: Value)
    ensures var reply := Some(Obj(map["status" := status, "data" := Single("status", txStatus)]));
      && (PaystackVerified(reply).success <==> Truthy(status) && txStatus == Str("success"))
      && (FlutterwaveVerified(reply).success <==> status == Str("success") && txStatus == Str("successful"))
  {
  }

  /** Any thrown error fails with the fixed message and no reference. */
  lemma ThrownErrorsFail()
    ensures PaystackInitialized(None) == FlutterwaveInitialized(None) == Caught(NetworkError)
    ensures PaystackVerified(None) == FlutterwaveVerified(None) == Caught(VerificationError)
    ensures !Caught(NetworkError).success && Caught(NetworkError).reference.None?
  {
  }
}

=== FILE: root_layout.dfy ===
/** The root layout: the authentication listener that turns a signed-in
    account and its stored profile into the store's user, and the choice of
    what the window shows — the start-up screen, the sign-in form, or the
    page the store names. */
module RootLayout {
  import opened Wrappers
  import opened Store
  import AuthForm
  import Sidebar

  /** The stored profile document; `None` stands for a missing field. */
  datatype Profile = Profile(displayName: Option<string>, tokens: Option<int>, plan: Option<string>, isAdmin: Option<bool>)

  /** What reading the profile gave: the document, no document, or a thrown error. */
  datatype Fetch = Found(profile: Profile) | Missing | FetchFailed

  /** `a || b` over nullable strings, where the empty string is falsy. */
  function OrElse(a: Option<string>, b: string): (r: string)
    ensures a.Some? && a.value != "" ==> r == a.value
    ensures a.None? || a.value == "" ==> r == b
  {
    if a.Some? && a.value != "" then a.value else b
  }

  /** The user record built from the account and its profile. */
  function Normalize(u: AuthForm.AuthUser, p: Profile): (r: User)
    ensures r.uid == u.uid && r.email == OrElse(u.email, "")
    ensures r.displayName == OrElse(u.displayName, OrElse(p.displayName, ""))
    ensures r.photoURL == Some(OrElse(u.photoURL, ""))
    ensures r.tokens == (if p.tokens.Some? then p.tokens.value else 0)
    ensures r.plan == OrElse(p.plan, "free") && r.plan != ""
    ensures r.isAdmin == Some(p.isAdmin == Some(true))
  {
    var tokens := if p.tokens.Some? && p.tokens.value != 0 then p.tokens.value else 0;
    var isAdmin := if p.isAdmin.Some? && p.isAdmin.value then true else false;
    User(u.uid, OrElse(u.email, ""), OrElse(u.displayName, OrElse(p.displayName, "")),
         Some(OrElse(u.photoURL, "")), tokens, OrElse(p.plan, "free"), Some(isAdmin))
  }

  /** The store together with the layout's own `initializing` flag. */
  datatype Shell = Shell(state: AppState, initializing: bool)

  const Start := Shell(Initial(), true)

  /** The listener's callback for one authentication event: `account` is the
      signed-in account or nothing, `fetched` the profile read for it. */
  function OnAuthStateChanged(sh: Shell, account: Option<AuthForm.AuthUser>, fetched: Fetch): (r: Shell)
    ensures !r.initializing && !r.state.loading
    ensures account.None? ==> r.state.user.None? && !r.state.isAuthenticated
    ensures account.Some? && fetched.Found? ==>
              r.state.user == Some(Normalize(account.value, fetched.profile)) && r.state.isAuthenticated
    ensures account.Some? && !fetched.Found? ==> r.state == sh.state.(loading := false)
    ensures Chat(r.state) == Chat(sh.state) && r.state.sidebarOpen == sh.state.sidebarOpen
    ensures r.state.currentPage == sh.state.currentPage && r.state.settings == sh.state.settings
    ensures Admin(r.state) == Admin(sh.state)
  {
    var busy := SetLoading(sh.state, true);
    var signedIn :=
      match account
      case None => SetAuthenticated(SetUser(busy, None), false)
      case Some(u) =>
        match fetched
        case Found(p) => SetAuthenticated(SetUser(busy, Some(Normalize(u, p))), true)
        case _ => busy;
    Shell(SetLoading(signedIn, false), false)
  }

  /** What `renderCurrentPage` shows: four screens of their own, or a
      placeholder with its title. */
  datatype Page = Home | ChatPage | ImagePage | VideoPage | Placeholder(title: string)

  /** The window: the start-up screen, the sign-in form, or the sidebar with a page. */
  datatype Screen = Initializing | SignInForm | WithSidebar(page: Page)

  /** The page ids the switch names. */
  const KnownPages: set<string> := {
    "home", "chat", "image", "video", "audio", "code", "documents", "face-swap",
    "content", "blog", "profile", "billing", "admin-dashboard", "admin-users", "admin-settings"}

  /** `renderCurrentPage`: an id the switch does not name shows the chat. */
  function PageFor(id: string): (p: Page)
    ensures id !in KnownPages ==> p == ChatPage
    ensures p == Home <==> id == "home"
    ensures p == ImagePage <==> id == "image"
    ensures p == VideoPage <==> id == "video"
  {
    match id
    case "home" => Home
    case "chat" => ChatPage
    case "image" => ImagePage
    case "video" => VideoPage
    case "audio" => Placeholder("Audio Generator")
    case "code" => Placeholder("Code Generator")
    case "documents" => Placeholder("Document Generator")
    case "face-swap" => Placeholder("Face Swap")
    case "content" => Placeholder("Content Creator")
    case "blog" => Placeholder("Blog Generator")
    case "profile" => Placeholder("Profile Settings")
    case "billing" => Placeholder("Billing & Subscriptions")
    case "admin-dashboard" => Placeholder("Admin Dashboard")
    case "admin-users" => Placeholder("User Management")
    case "admin-settings" => Placeholder("Admin Settings")
    case _ => ChatPage
  }

  /** The page id a page is shown for, read back from the page. */
  function IdOf(p: Page): (id: string)
    ensures id in KnownPages || id == ""
  {
    match p
    case Home => "home"
    case ChatPage => "chat"
    case ImagePage => "image"
    case VideoPage => "video"
    case Placeholder(title) =>
      match title
      case "Audio Generator" => "audio"
      case "Code Generator" => "code"
      case "Document Generator" => "documents"
      case "Face Swap" => "face-swap"
      case "Content Creator" => "content"
      case "Blog Generator" => "blog"
      case "Profile Settings" => "profile"
      case "Billing & Subscriptions" => "billing"
      case "Admin Dashboard" => "admin-dashboard"
      case "User Management" => "admin-users"
      case "Admin Settings" => "admin-settings"
      case _ => ""
  }

  /** Every id the switch names shows a page that leads back to it, so distinct
      ids show distinct pages. */
  lemma PagesDistinct(a: string, b: string)
    requires a in KnownPages && b in KnownPages
    ensures IdOf(PageFor(a)) == a
    ensures a != b ==> PageFor(a) != PageFor(b)
  {
    PageRoundTrip(a);
    PageRoundTrip(b);
  }

  lemma PageRoundTrip(id: string)
    requires id in KnownPages
    ensures IdOf(PageFor(id)) == id
  {
    if id in {"home", "chat", "image", "video", "audio"} {
      FirstPagesRoundTrip(id);
    } else if id in {"code", "documents", "face-swap", "content", "blog"} {
      MiddlePagesRoundTrip(id);
    } else {
      LastPagesRoundTrip(id);
    }
  }

  lemma FirstPagesRoundTrip(id: string)
    requires id in {"home", "chat", "image", "video", "audio"}
    ensures IdOf(PageFor(id)) == id
  {
  }

  lemma MiddlePagesRoundTrip(id: string)
    requires id in {"code", "documents", "face-swap", "content", "blog"}
    ensures IdOf(PageFor(id)) == id
  {
  }

  lemma LastPagesRoundTrip(id: string)
    requires id in {"profile", "billing", "admin-dashboard", "admin-users", "admin-settings"}
    ensures IdOf(PageFor(id)) == id
  {
  }

  /** Every entry the sidebar can render names a page of its own. */
  lemma SidebarPagesKnown(user: Option<User>, id: string)
    requires id in Sidebar.Offered(user)
    ensures id in KnownPages
    ensures id != "chat" ==> PageFor(id) != ChatPage
  {
  }

  /** The layout's render. */
  function View(sh: Shell): (v: Screen)
    ensures sh.initializing <==> v == Initializing
    ensures !sh.initializing && !sh.state.isAuthenticated ==> v == SignInForm
    ensures v.WithSidebar? <==> !sh.initializing && sh.state.isAuthenticated
  {
    if sh.initializing then Initializing
    else if !sh.state.isAuthenticated then SignInForm
    else WithSidebar(PageFor(sh.state.currentPage))
  }

  /** Before the first event the start-up screen shows; after a sign-out
      event the sign-in form; after a signed-in event with a profile, the
      page the store names; and after a logout from the sidebar, the sign-in
      form again. */
  lemma ScreensFollowSession(sh: Shell, u: AuthForm.AuthUser, p: Profile)
    ensures View(Start) == Initializing
    ensures View(OnAuthStateChanged(sh, None, Missing)) == SignInForm
    ensures View(OnAuthStateChanged(sh, Some(u), Found(p))) == WithSidebar(PageFor(sh.state.currentPage))
    ensures View(Shell(Sidebar.HandleLogout(sh.state, true), false)) == SignInForm
  {
  }

  /** An account without a profile document, or whose profile cannot be read,
      keeps whatever session the store already held, which after a reload is
      the persisted one. */
  lemma MissingProfileKeepsSession(sh: Shell, u: AuthForm.AuthUser, fetched: Fetch)
    requires !fetched.Found?
    ensures var r := OnAuthStateChanged(sh, Some(u), fetched);
      Session(r.state) == Session(sh.state)
      && View(r) == (if sh.state.isAuthenticated then WithSidebar(PageFor(sh.state.currentPage)) else SignInForm)
  {
  }

  /** A profile with tokens, plan and admin flag set to truthy values is
      copied as stored; one with none of them gets 0 tokens, the free plan
      and no admin rights, so the admin section stays hidden. */
  lemma NormalizeDefaults(u: AuthForm.AuthUser, p: Profile)
    ensures p.tokens.None? && p.plan.None? && p.isAdmin.None? ==>
              var r := Normalize(u, p);
              r.tokens == 0 && r.plan == "free" && r.isAdmin == Some(false) && !Sidebar.ShowsAdmin(Some(r))
    ensures p.plan.Some? && p.plan.value != "" ==> Normalize(u, p).plan == p.plan.value
    ensures Sidebar.ShowsAdmin(Some(Normalize(u, p))) <==> p.isAdmin == Some(true)
  {
  }
}

=== FILE: sidebar.dfy ===
/** The navigation sidebar: the three item lists, the admin section shown
    only to administrators, the user badge, navigation, and logout. */
module Sidebar {
  import opened Wrappers
  import opened Store

  /** The page ids of `menuItems`, in display order. */
  const MenuItems: seq<string> :=
    ["chat", "image", "video", "audio", "code", "documents", "face-swap", "content", "blog"]

  /** The page ids of `adminItems`. */
  const AdminItems: seq<string> := ["admin-dashboard", "admin-users", "admin-settings"]

  /** The page ids of `userItems`. */
  const UserItems: seq<string> := ["profile", "billing"]

  /** `user?.isAdmin` read as a condition: only a stored `true` is truthy. */
  predicate ShowsAdmin(user: Option<User>) {
    user.Some? && user.value.isAdmin == Some(true)
  }

  /** Every page id the sidebar can render for this user. */
  function Offered(user: Option<User>): (ids: seq<string>)
    ensures forall id :: id in MenuItems || id in UserItems ==> id in ids
    ensures forall id :: id in ids ==> id in MenuItems || id in UserItems || (ShowsAdmin(user) && id in AdminItems)
  {
    MenuItems + (if ShowsAdmin(user) then AdminItems else []) + UserItems
  }

  /** No id appears in two lists. */
  lemma ListsDisjoint()
    ensures forall id :: id in AdminItems ==> id !in MenuItems && id !in UserItems
    ensures forall id :: id in UserItems ==> id !in MenuItems
  {
  }

  /** The admin section appears exactly for a user whose `isAdmin` is true;
      a missing flag or no user hides it. */
  lemma AdminGating(user: Option<User>, id: string)
    requires id in AdminItems
    ensures id in Offered(user) <==> ShowsAdmin(user)
    ensures user.None? || user.value.isAdmin != Some(true) ==> id !in Offered(user)
  {
    ListsDisjoint();
  }

  /** An item's click handler: show its page and close the sidebar. An id the
      sidebar does not render cannot be clicked. */
  function Navigate(s: AppState, id: string): (r: AppState)
    ensures id in Offered(s.user) ==> r.currentPage == id && !r.sidebarOpen
    ensures id !in Offered(s.user) ==> r == s
    ensures Session(r) == Session(s) && Chat(r) == Chat(s) && r.loading == s.loading
    ensures r.settings == s.settings && Admin(r) == Admin(s)
  {
    if id in Offered(s.user) then SetSidebarOpen(SetCurrentPage(s, id), false) else s
  }

  /** The highlighted entry: the one whose id is the current page. */
  predicate Active(s: AppState, id: string) {
    s.currentPage == id
  }

  /** The ids the sidebar renders are pairwise distinct, so after a click
      exactly the clicked entry is highlighted. */
  lemma NavigateHighlightsOne(s: AppState, id: string)
    requires id in Offered(s.user)
    ensures var ids := Offered(s.user);
      forall i, j :: 0 <= i < j < |ids| ==> ids[i] != ids[j]
    ensures var r := Navigate(s, id);
      forall other :: other in Offered(r.user) && Active(r, other) ==> other == id
  {
    var ids := Offered(s.user);
    forall i, j | 0 <= i < j < |ids| ensures ids[i] != ids[j] {
      ListsDisjoint();
    }
  }

  /** The overlay and the close button: `setSidebarOpen(false)`; the menu
      button: `setSidebarOpen(true)`. */
  function Toggle(s: AppState, open: bool): (r: AppState)
    ensures r.sidebarOpen == open && r.currentPage == s.currentPage
    ensures Session(r) == Session(s) && Chat(r) == Chat(s)
    ensures r.loading == s.loading && r.settings == s.settings && Admin(r) == Admin(s)
  {
    SetSidebarOpen(s, open)
  }

  /** Closing is what navigation does besides changing the page, so closing
      after a click changes nothing more. */
  lemma CloseAfterNavigate(s: AppState, id: string)
    requires id in Offered(s.user)
    ensures Toggle(Navigate(s, id), false) == Navigate(s, id)
    ensures Navigate(Toggle(s, true), id) == Navigate(s, id)
  {
  }

  /** The name and the avatar letter in the user badge: `displayName || 'User'`,
      and the first letter of the display name, else of the email. */
  function Badge(u: User): (b: (string, string))
    ensures u.displayName != "" ==> b.0 == u.displayName && b.1 == u.displayName[..1]
    ensures u.displayName == "" ==> b.0 == "User" && b.1 == (if u.email == "" then "" else u.email[..1])
    ensures |b.1| <= 1
  {
    var initial := if u.displayName != "" then u.displayName[..1] else if u.email != "" then u.email[..1] else "";
    (if u.displayName != "" then u.displayName else "User", initial)
  }

  /** `handleLogout`; `signedOut` says whether the sign-out call returned. A
      failed sign-out leaves the store as it was. */
  function HandleLogout(s: AppState, signedOut: bool): (r: AppState)
    ensures signedOut ==> r.user.None? && !r.isAuthenticated
    ensures !signedOut ==> r == s
    ensures Chat(r) == Chat(s) && Ui(r) == Ui(s) && r.settings == s.settings && Admin(r) == Admin(s)
  {
    if signedOut then SetAuthenticated(SetUser(s, None), false) else s
  }

  /** After a logout neither the admin section nor the badge is shown, and the
      session that is persisted has no user. */
  lemma LogoutHidesAccount(s: AppState, id: string)
    requires id in AdminItems
    ensures var r := HandleLogout(s, true);
      && id !in Offered(r.user)
      && Partialize(r).user.None? && !Partialize(r).isAuthenticated
      && Partialize(r).currentPage == s.currentPage
  {
    AdminGating(HandleLogout(s, true).user, id);
  }
}

=== FILE: store.dfy ===
/** The application state container: the user session, chat, UI, settings and
    admin slices, the actions that change them, and the projection that is
    written to persistent storage. */
module Store {
  import opened Wrappers
  import JsValue

  datatype User = User(
    uid: string,
    email: string,
    displayName: string,
    photoURL: Option<string>,
    tokens: int,
    plan: string,
    isAdmin: Option<bool>)

  datatype Sender = FromUser | FromAi

  /** A chat message; the timestamp is a clock reading supplied by the caller. */
  datatype ChatMessage = ChatMessage(id: string, sender: Sender, content: string, timestamp: int)

  datatype Theme = Light | Dark

  datatype Settings = Settings(
    appName: string,
    logo: string,
    theme: Theme,
    primaryColor: string,
    googleAnalyticsId: Option<string>)

  /** A `Partial<AppSettings>`: `Some` marks a key that is present. */
  datatype SettingsPatch = SettingsPatch(
    appName: Option<string>,
    logo: Option<string>,
    theme: Option<Theme>,
    primaryColor: Option<string>,
    googleAnalyticsId: Option<string>)

  datatype AppState = AppState(
    user: Option<User>,
    isAuthenticated: bool,
    messages: seq<ChatMessage>,
    isTyping: bool,
    currentChat: Option<string>,
    sidebarOpen: bool,
    currentPage: string,
    loading: bool,
    settings: Settings,
    users: seq<User>,
    analytics: JsValue.Value)

  /** The part of the state that survives a reload. */
  datatype Persisted = Persisted(
    user: Option<User>,
    isAuthenticated: bool,
    settings: Settings,
    sidebarOpen: bool,
    currentPage: string)

  // The slices of the state, used to say what an action leaves alone.
  function Session(s: AppState): (Option<User>, bool) { (s.user, s.isAuthenticated) }
  function Chat(s: AppState): (seq<ChatMessage>, bool, Option<string>) { (s.messages, s.isTyping, s.currentChat) }
  function Ui(s: AppState): (bool, string, bool) { (s.sidebarOpen, s.currentPage, s.loading) }
  function Admin(s: AppState): (seq<User>, JsValue.Value) { (s.users, s.analytics) }

  const DefaultSettings := Settings("Fusion AI 2.0", "/logo.png", Dark, "#667eea", None)

  function Initial(): (s: AppState)
    ensures s.user.None? && !s.isAuthenticated
    ensures s.messages == [] && !s.isTyping && s.currentChat.None?
    ensures s.sidebarOpen && s.currentPage == "chat" && !s.loading
    ensures s.settings == DefaultSettings && s.users == [] && s.analytics == JsValue.Null
  {
    AppState(None, false, [], false, None, true, "chat", false, DefaultSettings, [], JsValue.Null)
  }

  /** `setUser`: the session flag follows whether a user is given. */
  function SetUser(s: AppState, u: Option<User>): (r: AppState)
    ensures r.user == u && r.isAuthenticated == u.Some?
    ensures Chat(r) == Chat(s) && Ui(r) == Ui(s) && r.settings == s.settings && Admin(r) == Admin(s)
  {
    s.(user := u, isAuthenticated := u.Some?)
  }

  /** `setAuthenticated`: the flag alone, whatever the user is. */
  function SetAuthenticated(s: AppState, authenticated: bool): (r: AppState)
    ensures r.isAuthenticated == authenticated && r.user == s.user
    ensures Chat(r) == Chat(s) && Ui(r) == Ui(s) && r.settings == s.settings && Admin(r) == Admin(s)
  {
    s.(isAuthenticated := authenticated)
  }

  /** `addMessage`: appends at the end. */
  function AddMessage(s: AppState, m: ChatMessage): (r: AppState)
    ensures |r.messages| == |s.messages| + 1
    ensures r.messages[..|s.messages|] == s.messages && r.messages[|s.messages|] == m
    ensures Session(r) == Session(s) && r.isTyping == s.isTyping && r.currentChat == s.currentChat
    ensures Ui(r) == Ui(s) && r.settings == s.settings && Admin(r) == Admin(s)
  {
    s.(messages := s.messages + [m])
  }

  function SetTyping(s: AppState, typing: bool): (r: AppState)
    ensures r.isTyping == typing && r.messages == s.messages && r.currentChat == s.currentChat
    ensures Session(r) == Session(s) && Ui(r) == Ui(s) && r.settings == s.settings && Admin(r) == Admin(s)
  {
    s.(isTyping := typing)
  }

  function ClearMessages(s: AppState): (r: AppState)
    ensures r.messages == [] && r.isTyping == s.isTyping && r.currentChat == s.currentChat
    ensures Session(r) == Session(s) && Ui(r) == Ui(s) && r.settings == s.settings && Admin(r) == Admin(s)
  {
    s.(messages := [])
  }

  function SetSidebarOpen(s: AppState, open: bool): (r: AppState)
    ensures r.sidebarOpen == open && r.currentPage == s.currentPage && r.loading == s.loading
    ensures Session(r) == Session(s) && Chat(r) == Chat(s) && r.settings == s.settings && Admin(r) == Admin(s)
  {
    s.(sidebarOpen := open)
  }

  function SetCurrentPage(s: AppState, page: string): (r: AppState)
    ensures r.currentPage == page && r.sidebarOpen == s.sidebarOpen && r.loading == s.loading
    ensures Session(r) == Session(s) && Chat(r) == Chat(s) && r.settings == s.settings && Admin(r) == Admin(s)
  {
    s.(currentPage := page)
  }

  function SetLoading(s: AppState, loading: bool): (r: AppState)
    ensures r.loading == loading && r.sidebarOpen == s.sidebarOpen && r.currentPage == s.currentPage
    ensures Session(r) == Session(s) && Chat(r) == Chat(s) && r.settings == s.settings && Admin(r) == Admin(s)
  {
    s.(loading := loading)
  }

  /** `{ ...settings, ...patch }`. */
  function ApplyPatch(base: Settings, p: SettingsPatch): (r: Settings)
    ensures p.appName.Some? ==> r.appName == p.appName.value
    ensures p.appName.None? ==> r.appName == base.appName
    ensures p.logo.Some? ==> r.logo == p.logo.value
    ensures p.logo.None? ==> r.logo == base.logo
    ensures p.theme.Some? ==> r.theme == p.theme.value
    ensures p.theme.None? ==> r.theme == base.theme
    ensures p.primaryColor.Some? ==> r.primaryColor == p.primaryColor.value
    ensures p.primaryColor.None? ==> r.primaryColor == base.primaryColor
    ensures p.googleAnalyticsId.Some? ==> r.googleAnalyticsId == p.googleAnalyticsId
    ensures p.googleAnalyticsId.None? ==> r.googleAnalyticsId == base.googleAnalyticsId
  {
    Settings(
      p.appName.GetOr(base.appName),
      p.logo.GetOr(base.logo),
      p.theme.GetOr(base.theme),
      p.primaryColor.GetOr(base.primaryColor),
      if p.googleAnalyticsId.Some? then p.googleAnalyticsId else base.googleAnalyticsId)
  }

  /** `updateSettings`: overwrites exactly the keys present in the patch. */
  function UpdateSettings(s: AppState, p: SettingsPatch): (r: AppState)
    ensures r.settings == ApplyPatch(s.settings, p)
    ensures Session(r) == Session(s) && Chat(r) == Chat(s) && Ui(r) == Ui(s) && Admin(r) == Admin(s)
  {
    s.(settings := ApplyPatch(s.settings, p))
  }

  const EmptyPatch := SettingsPatch(None, None, None, None, None)

  /** `{ ...p1, ...p2 }`: the later patch wins on shared keys. */
  function MergePatches(p1: SettingsPatch, p2: SettingsPatch): SettingsPatch {
    SettingsPatch(
      if p2.appName.Some? then p2.appName else p1.appName,
      if p2.logo.Some? then p2.logo else p1.logo,
      if p2.theme.Some? then p2.theme else p1.theme,
      if p2.primaryColor.Some? then p2.primaryColor else p1.primaryColor,
      if p2.googleAnalyticsId.Some? then p2.googleAnalyticsId else p1.googleAnalyticsId)
  }

  /** Two updates in a row are one update with the merged patch; the empty
      patch changes nothing and repeating a patch changes nothing more. */
  lemma UpdateSettingsComposes(s: AppState, p1: SettingsPatch, p2: SettingsPatch)
    ensures UpdateSettings(UpdateSettings(s, p1), p2) == UpdateSettings(s, MergePatches(p1, p2))
    ensures UpdateSettings(s, EmptyPatch) == s
    ensures UpdateSettings(UpdateSettings(s, p1), p1) == UpdateSettings(s, p1)
  {
  }

  /** Every field except the balance. */
  predicate SameButTokens(u: User, v: User) {
    && u.uid == v.uid && u.email == v.email && u.displayName == v.displayName
    && u.photoURL == v.photoURL && u.plan == v.plan && u.isAdmin == v.isAdmin
  }

  /** `updateUserTokens`: no user stays no user; a user gets the new balance
      and keeps everything else. */
  function UpdateUserTokens(s: AppState, tokens: int): (r: AppState)
    ensures r.user.None? <==> s.user.None?
    ensures r.user.Some? ==> r.user.value.tokens == tokens && SameButTokens(r.user.value, s.user.value)
    ensures r.isAuthenticated == s.isAuthenticated
    ensures Chat(r) == Chat(s) && Ui(r) == Ui(s) && r.settings == s.settings && Admin(r) == Admin(s)
  {
    s.(user := if s.user.Some? then Some(s.user.value.(tokens := tokens)) else None)
  }

  function SetUsers(s: AppState, users: seq<User>): (r: AppState)
    ensures r.users == users && r.analytics == s.analytics
    ensures Session(r) == Session(s) && Chat(r) == Chat(s) && Ui(r) == Ui(s) && r.settings == s.settings
  {
    s.(users := users)
  }

  function SetAnalytics(s: AppState, analytics: JsValue.Value): (r: AppState)
    ensures r.analytics == analytics && r.users == s.users
    ensures Session(r) == Session(s) && Chat(r) == Chat(s) && Ui(r) == Ui(s) && r.settings == s.settings
  {
    s.(analytics := analytics)
  }

  /** `partialize`: what is written to storage. */
  function Partialize(s: AppState): (p: Persisted)
    ensures p.user == s.user && p.isAuthenticated == s.isAuthenticated && p.settings == s.settings
    ensures p.sidebarOpen == s.sidebarOpen && p.currentPage == s.currentPage
  {
    Persisted(s.user, s.isAuthenticated, s.settings, s.sidebarOpen, s.currentPage)
  }

  /** Reloading: the stored fields are laid over the current state. */
  function Rehydrate(s: AppState, p: Persisted): (r: AppState)
    ensures Partialize(r) == p
    ensures Chat(r) == Chat(s) && r.loading == s.loading && Admin(r) == Admin(s)
  {
    s.(user := p.user, isAuthenticated := p.isAuthenticated, settings := p.settings,
       sidebarOpen := p.sidebarOpen, currentPage := p.currentPage)
  }

  /** Storing and reloading into the same state is the identity, and the
      messages, typing flag, current chat, loading flag, users and analytics
      never reach storage. */
  lemma PersistRoundTrip(s: AppState, t: AppState)
    ensures Rehydrate(s, Partialize(s)) == s
    ensures (Session(s) == Session(t) && s.settings == t.settings && s.sidebarOpen == t.sidebarOpen
             && s.currentPage == t.currentPage) ==> Partialize(s) == Partialize(t)
  {
  }

  /** `setAuthenticated` can leave a signed-in flag without a user, so
      "authenticated exactly when a user is present" is not an invariant. */
  lemma AuthenticatedWithoutUser()
    ensures var r := SetAuthenticated(Initial(), true); r.isAuthenticated && r.user.None?
  {
  }

  /** After clearing, the next message is the only one. */
  lemma ClearThenAdd(s: AppState, m: ChatMessage)
    ensures AddMessage(ClearMessages(s), m).messages == [m]
  {
  }
}

=== FILE: text_route.dfy ===
/** POST /api/generate/text: checks the prompt and the API key, forwards
    `{ inputs: prompt }` to the text model and returns `{ text }`, or an
    `{ error }` body. */
module TextRoute {
  import opened Wrappers
  import opened JsValue
  import opened Http

  const ModelUrl := "https://api-inference.huggingface.co/models/gpt2"
  const Apology := "Sorry, I couldn't generate a response at this time."
  const UpstreamFailed := "Failed to generate text due to an API error."

  /** The reply is parsed as JSON before `ok` is looked at. */
  predicate Parsed(f: Fetched) {
    f.Reply? && f.json.Some?
  }

  /** Everything the handler does with the upstream reply. */
  function Finish(f: Fetched): (r: Response)
    ensures r.JsonResponse?
    ensures !Parsed(f) ==> r == JsonError(500, ServerError)
    ensures r.status == 200 <==> Parsed(f) && IsOk(f.status) && At(f.json.value, 0).Some?
    ensures r.status == 200 ==>
              exists t :: r.body == Single("text", t) && Truthy(t)
    ensures Parsed(f) && IsOk(f.status) && At(f.json.value, 0).Some? ==>
              r.body == Single("text", Or(OptGet(At(f.json.value, 0).value, "generated_text"), Str(Apology)))
    ensures Parsed(f) && !IsOk(f.status) && Get(f.json.value, "error").Some? && !NullBodyStatus(f.status) ==>
              r == JsonResponse(f.status, ErrorBody(Or(Get(f.json.value, "error").value, Str(UpstreamFailed))))
    ensures Parsed(f) && !IsOk(f.status) && f.json.value.Obj? && !NullBodyStatus(f.status) ==>
              r.status == f.status && r.body.Obj? && r.body.fields.Keys == {"error"}
    ensures Parsed(f) && (f.json.value.Null? || f.json.value.Undefined? || (!IsOk(f.status) && NullBodyStatus(f.status))) ==>
              r == JsonError(500, ServerError)
  {
    match f
    case NetworkError => JsonError(500, ServerError)
    case Reply(status, _, json) =>
      if json.None? then JsonError(500, ServerError)
      else
        var result := json.value;
        if IsOk(status) then
          match At(result, 0)
          case None => JsonError(500, ServerError)
          case Some(first) =>
            JsonResponse(200, Single("text", Or(OptGet(first, "generated_text"), Str(Apology))))
        else
          match Get(result, "error")
          case None => JsonError(500, ServerError)
          case Some(err) =>
            match JsonWithStatus(status, ErrorBody(Or(err, Str(UpstreamFailed))))
            case None => JsonError(500, ServerError)
            case Some(resp) => resp
  }

  /** The whole handler; `f` is what the upstream returns if it is called. */
  function Post(request: Option<Value>, key: Option<string>, f: Fetched): (r: Response)
    ensures FieldMissing(request, "prompt") ==> r == JsonError(400, PromptRequired)
    ensures FieldGiven(request, "prompt") && !KeyConfigured(key) ==> r == JsonError(500, KeyNotConfigured)
    ensures FieldGiven(request, "prompt") && KeyConfigured(key) ==> r == Finish(f)
  {
    match PromptStep(ModelUrl, request, key)
    case Respond(resp) => resp
    case Forward(_) => Finish(f)
  }

  /** Without a key the upstream reply plays no part: no call is made. */
  lemma NoCallWithoutKey(request: Option<Value>, key: Option<string>, f1: Fetched, f2: Fetched)
    requires !KeyConfigured(key)
    ensures PromptStep(ModelUrl, request, key).Respond?
    ensures Post(request, key, f1) == Post(request, key, f2)
  {
  }

  /** A generated text is returned as it is; an empty or missing one, an
      empty list, or an object reply without a first element is replaced by
      the apology. */
  lemma GeneratedTextOrApology(status: Status, bytes: seq<Byte>, result: Value)
    requires IsOk(status) && (result.Arr? || result.Obj?)
    ensures
      var r := Finish(Reply(status, bytes, Some(result)));
      && r.status == 200
      && (result.Arr? && |result.items| > 0 && Truthy(OptGet(result.items[0], "generated_text")) ==>
            r.body == Single("text", OptGet(result.items[0], "generated_text")))
      && (result.Arr? && |result.items| == 0 ==> r.body == Single("text", Str(Apology)))
      && (result.Arr? && |result.items| > 0 && !Truthy(OptGet(result.items[0], "generated_text")) ==>
            r.body == Single("text", Str(Apology)))
      && (result.Obj? && "0" !in result.fields ==> r.body == Single("text", Str(Apology)))
  {
  }

  /** The upstream's own status and error message are passed through. */
  lemma UpstreamErrorPassedThrough(status: Status, bytes: seq<Byte>, message: string)
    requires !IsOk(status) && !NullBodyStatus(status) && message != ""
    ensures Finish(Reply(status, bytes, Some(Single("error", Str(message)))))
            == JsonError(status, message)
    ensures Finish(Reply(status, bytes, Some(Obj(map[])))) == JsonError(status, UpstreamFailed)
  {
  }

  /** The route's success test, for any non-empty prompt, key and generated
      text: the first generation's text is returned. */
  lemma TestedSuccess(prompt: string, key: string, text: string)
    requires prompt != "" && key != "" && text != ""
    ensures Post(Some(Single("prompt", Str(prompt))), Some(key),
                 Reply(200, [], Some(Arr([Single("generated_text", Str(text))]))))
            == JsonResponse(200, Single("text", Str(text)))
  {
    var generation := Single("generated_text", Str(text));
    assert FieldGiven(Some(Single("prompt", Str(prompt))), "prompt");
    assert At(Arr([generation]), 0) == Some(generation);
    assert OptGet(generation, "generated_text") == Str(text);
  }

  /** The route's upstream failure test, for any non-empty prompt, key and
      message: the upstream's status and error text are passed on. */
  lemma TestedUpstreamFailure(prompt: string, key: string, message: string)
    requires prompt != "" && key != "" && message != ""
    ensures Post(Some(Single("prompt", Str(prompt))), Some(key),
                 Reply(500, [], Some(Single("error", Str(message)))))
            == JsonError(500, message)
  {
    assert FieldGiven(Some(Single("prompt", Str(prompt))), "prompt");
  }

  /** The route's tests with a missing prompt, and with a missing key. */
  lemma TestedMissingInputs(prompt: string, key: string, f: Fetched)
    requires prompt != ""
    ensures Post(Some(Obj(map[])), Some(key), f) == JsonError(400, PromptRequired)
    ensures Post(Some(Single("prompt", Str(prompt))), None, f) == JsonError(500, KeyNotConfigured)
  {
    assert FieldGiven(Some(Single("prompt", Str(prompt))), "prompt");
  }
}

=== FILE: video_generator.dfy ===
/** The video generator screen: the quality cost table, the duration
    multiplier, and `handleGenerate` with its guards and debit. */
module VideoGenerator {
  import opened Wrappers
  import opened JsString
  import Store
  import Engine
  import opened Ledger

  /** The three input tabs. */
  datatype Tab = PromptTab | ScriptTab | UrlTab

  /** The screen's inputs: the active tab, the three text fields, the slider
      duration in seconds and the chosen quality id. */
  datatype Form = Form(tab: Tab, prompt: string, script: string, url: string, duration: int, quality: string)

  /** The quality table `qualities`, reduced to id and tokens. */
  const Qualities: Table := [("720p", 5), ("1080p", 10), ("4K", 20)]

  /** `qualities.find(q => q.id === quality)?.tokens || 10`. */
  function BaseTokens(quality: string): (b: int)
    ensures quality == "720p" ==> b == 5
    ensures quality == "1080p" ==> b == 10
    ensures quality == "4K" ==> b == 20
    ensures quality !in {"720p", "1080p", "4K"} ==> b == 10
  {
    FindFirst(Qualities, 0);
    FindFirst(Qualities, 1);
    FindFirst(Qualities, 2);
    TokensOr(Find(Qualities, quality), 10)
  }

  /** `Math.ceil(duration / 30)`, for any integer duration. */
  function CeilDiv30(duration: int): (m: int)
    ensures 30 * (m - 1) < duration <= 30 * m
  {
    -((-duration) / 30)
  }

  /** `calculateTokens()`: the base rate for every started 30-second block,
      so 30 times the cost is the least multiple of 30 base rates covering
      the whole duration. */
  function Cost(quality: string, duration: int): (c: int)
    ensures BaseTokens(quality) * duration <= 30 * c < BaseTokens(quality) * (duration + 30)
  {
    var b, m := BaseTokens(quality), CeilDiv30(duration);
    assert 30 * (m - 1) < duration <= 30 * m;
    assert b > 0;
    assert b * duration <= b * (30 * m) by {
      MulLeftMonotone(b, duration, 30 * m);
    }
    assert b * (30 * (m - 1)) < b * duration by {
      MulLeftStrict(b, 30 * (m - 1), duration);
    }
    b * m
  }

  lemma MulLeftMonotone(b: int, x: int, y: int)
    requires b > 0 && x <= y
    ensures b * x <= b * y
  {
  }

  lemma MulLeftStrict(b: int, x: int, y: int)
    requires b > 0 && x < y
    ensures b * x < b * y
  {
  }

  /** The cost never decreases as the video gets longer, and each further
      started 30-second block adds one more base rate. */
  lemma CostMonotone(quality: string, d1: int, d2: int)
    requires 0 < d1 <= d2
    ensures Cost(quality, d1) <= Cost(quality, d2)
    ensures Cost(quality, d1 + 30) == Cost(quality, d1) + BaseTokens(quality)
  {
    assert CeilDiv30(d1) <= CeilDiv30(d2);
    assert BaseTokens(quality) > 0;
  }

  /** Over the slider's range (10 to 10800 seconds) the multiplier lies in
      [1, 360] and the cost in [5, 7200]. */
  lemma SliderCostBounds(quality: string, duration: int)
    requires 10 <= duration <= 10800
    ensures 1 <= CeilDiv30(duration) <= 360
    ensures 5 <= Cost(quality, duration) <= 7200
  {
    var m := CeilDiv30(duration);
    var b := BaseTokens(quality);
    assert 5 <= b <= 20;
    assert 5 <= b * m by {
      assert b * m >= b * 1;
    }
    assert b * m <= 20 * 360 by {
      assert b * m <= 20 * m;
    }
  }

  /** A slider duration reaches the video model unclamped, and the model's
      clamp keeps any duration it is sent within three hours. */
  lemma SliderDurationUnclamped(duration: int)
    requires 10 <= duration <= 10800
    ensures Engine.ClampDuration(duration) == duration
    ensures CeilDiv30(Engine.ClampDuration(duration)) == CeilDiv30(duration)
  {
  }

  /** The text of the active tab. */
  function ActiveText(f: Form): string {
    match f.tab
    case PromptTab => f.prompt
    case ScriptTab => f.script
    case UrlTab => f.url
  }

  /** The toast for a blank active tab. */
  function MissingInput(tab: Tab): string {
    match tab
    case PromptTab => "Please enter a prompt"
    case ScriptTab => "Please enter a script"
    case UrlTab => "Please enter a URL"
  }

  const UrlPrefix := "Generate video based on content from: "

  /** What is sent to the video model: the prompt or script as typed, or a
      sentence naming the URL. */
  function Content(f: Form): (c: string)
    ensures f.tab == UrlTab ==> c == UrlPrefix + f.url
    ensures f.tab != UrlTab ==> c == ActiveText(f)
  {
    match f.tab
    case PromptTab => f.prompt
    case ScriptTab => f.script
    case UrlTab => UrlPrefix + f.url
  }

  /** The call `fusionAI.generateVideo(content, { duration, quality, style, type })`. */
  datatype Request = Request(content: string, duration: int, quality: string, tab: Tab)

  const Insufficient := "Insufficient tokens for this video generation"
  const Succeeded := "Video generated successfully!"
  const Failed := "Failed to generate video"

  /** The state after `handleGenerate`, its toast, and the generation it
      started, if any. */
  datatype Run = Run(state: Store.AppState, toast: Toast, request: Option<Request>)

  /** Whether `handleGenerate` gets past its guards. */
  predicate Admitted(s: Store.AppState, f: Form) {
    s.user.Some? && !IsBlank(ActiveText(f)) && Balance(s) >= Cost(f.quality, f.duration)
  }

  /** `handleGenerate`; `generated` says whether the video model returned, and
      `recorded` whether the remote balance write succeeded. */
  function HandleGenerate(s: Store.AppState, f: Form, generated: bool, recorded: bool): (r: Run)
    ensures r.request.Some? <==> Admitted(s, f)
    ensures !Admitted(s, f) || !generated ==> r.state == s
    ensures s.user.None? ==> r.toast == NoToast
    ensures s.user.Some? && IsBlank(ActiveText(f)) ==> r.toast == ErrorToast(MissingInput(f.tab))
    ensures s.user.Some? && !IsBlank(ActiveText(f)) && Balance(s) < Cost(f.quality, f.duration) ==>
              r.toast == ErrorToast(Insufficient)
    ensures r.request.Some? ==>
              r.request.value == Request(Content(f), f.duration, f.quality, f.tab)
    ensures Admitted(s, f) && generated ==>
              r.state == Store.UpdateUserTokens(s, Balance(s) - Cost(f.quality, f.duration))
    ensures r.toast == SuccessToast(Succeeded) <==> Admitted(s, f) && generated && recorded
    ensures Admitted(s, f) && r.toast != SuccessToast(Succeeded) ==> r.toast == ErrorToast(Failed)
  {
    if s.user.None? then Run(s, NoToast, None)
    else if IsBlank(ActiveText(f)) then Run(s, ErrorToast(MissingInput(f.tab)), None)
    else
      var cost := Cost(f.quality, f.duration);
      if Balance(s) < cost then Run(s, ErrorToast(Insufficient), None)
      else
        var (t, toast) := Settle(s, cost, generated, recorded, Succeeded, Failed);
        Run(t, toast, Some(Request(Content(f), f.duration, f.quality, f.tab)))
  }

  /** A generation that runs takes exactly the cost off the balance, which
      stays non-negative; one that throws takes nothing. */
  lemma BalanceAfterGenerate(s: Store.AppState, f: Form, generated: bool, recorded: bool)
    requires Admitted(s, f)
    ensures var r := HandleGenerate(s, f, generated, recorded);
      && r.state.user.Some?
      && Balance(r.state) == (if generated then Balance(s) - Cost(f.quality, f.duration) else Balance(s))
      && (generated ==> Balance(r.state) >= 0)
  {
  }
}

=== FILE: wrappers.dfy ===
/** Optional values and success/failure results shared by every module. */
module Wrappers {

  /** A value that may be absent: an optional field, a missing object key. */
  datatype Option<+T> = None | Some(value: T) {
    function GetOr(default: T): T {
      match this
      case Some(v) => v
      case None => default
    }
  }

  /** The outcome of a step that can throw: `Err` carries the error message. */
  datatype Result<+T> = Ok(value: T) | Err(error: string)
}
